=== FILE: README.md ===
# prerecordsink — a Dafny model of the chunk-routing core

`prerecordsink` is a GStreamer sink element that writes a media stream to a
file and can keep a rolling window of recent data in memory ("prerecord").
When the application switches the `buffering` property to recording, the
retained window is written out first, followed by live data. After a switch
to postrecord, the sink keeps writing for `post-record` seconds and then ends
the stream.

This project models the core that decides where each chunk of data goes:

- **The retention FIFO** (`BufferListFIFO` in `gstprerecordsink.h`).
  - `Fifo` models it as a value (a sequence of batches, oldest first).
  - `LinkedFifo` models the header's singly linked list over an explicit
    heap. Lemmas show that each pointer-level helper implements the
    value-level operation.
- **The write retry loop** shared by `render_buffer`,
  `gst_file_sink_render_list_internal` and the memory flush (`Writer`).
- **The file**, modelled as bytes plus a cursor (`Storage`).
- **The sink state and its operations** (`Sink`):
  - the coalescer: `current_pos`, the pending byte buffer or buffer list,
    and `current_buffer_size`;
  - the phase machine of `gst_prerecord_sink_render_list_internal`;
  - the entry points `render` and `render_list`;
  - the SEGMENT, FLUSH_STOP and EOS events;
  - the POSITION query, `do_seek`, and opening the file.
- **Cross-call properties**:
  - `SinkProperties`: the coalescer invariant, what the position query
    means, and that coalescing neither loses nor reorders bytes.
  - `PhaseProperties`: Recording drain order, the Postrecord deadline, the
    Prerecord bootstrap, and the growing and then sliding retention window.

Outside parties are parameters, not hidden calls:

- **The vectored writer.** Each call takes the next entry of a script of
  `Attempt(written, flow, resume)`. An OK answer means every remaining byte
  was written. Any other answer writes at most what remains. `resume` is
  what `gst_base_sink_wait_preroll` returns after a FLUSHING answer.
- **The clock.** Each call into the phase machine gets a `Clock` of two
  readings, in nanoseconds. `first` is the reading taken when a deadline
  clock is started. `second` is the reading taken afterwards to measure the
  elapsed time. Nothing relates the two, so a clock that stalls, jumps or
  runs backwards is covered. Elapsed time is computed as `GstClockTime`
  does, by unsigned 64-bit subtraction (`Sink.Elapsed`). A reading behind
  the start therefore wraps to a huge elapsed time. Each phase-machine
  call reads the clock afresh. `Env.next` always serves `render_list`'s
  own phase step. `Env.now` serves any phase step a flush makes. So when
  `render_list` flushes a pending list and then passes its own list, the
  two steps get separate readings.
- **`fseeko`, `ftruncate` and `fsync`.** Their results come in an `Env`
  record as booleans.

`buffering` is an integer, as in the source:

| value | phase |
|---|---|
| 0 (`_IOFBF`) | Recording |
| 1 (`_IOLBF`) | Postrecord |
| anything else (the default, -1) | Prerecord |

Buffer modes:

- FULL gets a byte buffer.
- DEFAULT and LINE both get a buffer list, as `open_prerecord` does.
- UNBUFFERED gets neither.

The phase machine's function-local `static` variables are fields of `Phase`
in the sink state.

Two behaviours of the code a reader might not expect:

- **Retention window.** The window clock `start_time2` is started by the
  first retained batch after a bootstrap. It is cleared only when a
  bootstrap completes (c:981), never on an eviction. So, within one run of
  retention, once more than `pre-record` seconds have passed every new
  batch evicts exactly one old batch. The window then keeps the length it
  had when it was armed (`WindowSlides`). It does not re-measure a fresh
  `pre-record` interval after each eviction. A Postrecord pass with
  `post-record` > 0 that does not reach its deadline clears
  `first_buffers_written` and `num` (c:950-951). A later return to
  Prerecord then runs a new bootstrap and restarts the window clock. Every
  other Postrecord pass leaves the bootstrap and window state as it was
  (`PostrecordKeepsWindow`). That means a pass with `post-record` not
  positive, and the pass that answers EOS. After such a pass a return to
  Prerecord goes straight back to retention, with the old window clock and
  eviction flag.
- **FLUSH_STOP.** On a seekable file away from position 0, the
  `do_seek(0)` flushes pending data first, and its result is ignored
  (c:701).
  - In full mode, and in list mode while recording with nothing retained,
    that flush writes the pending data (`FlushStopRestartsFile`).
  - In list mode the flush goes through the phase machine, so the phase
    decides. In Postrecord with `post-record` not positive, the list is
    dropped without writing, because c:924-925 has no else branch
    (`FlushStopPostrecordDropsList`). In Prerecord after the bootstrap,
    the list joins the retention FIFO instead of the file.
  - A flush that fails leaves the rest unwritten, and it is dropped all
    the same.
  - Without a seek, pending data is dropped without writing
    (`FlushStopDropsPending`).

## Model

| member | source | states |
|---|---|---|
| Fifo.Initialize | prerecordsink/Prerecord_Files/Code_Files/gstprerecordsink.h:95-104 | a new FIFO holds no items |
| Fifo.Size | prerecordsink/Prerecord_Files/Code_Files/gstprerecordsink.h:108-118 | the size is zero exactly when the FIFO is empty |
| Fifo.Push | prerecordsink/Prerecord_Files/Code_Files/gstprerecordsink.h:128-144 | the item becomes the new last element and every earlier item keeps its place |
| Fifo.Pop | prerecordsink/Prerecord_Files/Code_Files/gstprerecordsink.h:147-162 | an empty FIFO yields nothing and is unchanged; otherwise the head is returned and head followed by the rest is the old FIFO |
| Fifo.PopNth | prerecordsink/Prerecord_Files/Code_Files/gstprerecordsink.h:166-205 | for an index in range, that item is returned and removed, with the items before and after it keeping their order; an index out of range returns nothing and changes nothing |
| Fifo.PopNthZeroIsPop | prerecordsink/Prerecord_Files/Code_Files/gstprerecordsink.h:147-205 | removing node 0 is the same as popping |
| Fifo.Free | prerecordsink/Prerecord_Files/Code_Files/gstprerecordsink.h:211-216 | popping until empty releases every item, in FIFO order, and leaves the FIFO empty |
| LinkedFifo.ReprIsLinked | prerecordsink/Prerecord_Files/Code_Files/gstprerecordsink.h:84-92 | a well-formed list has front and rear both null or both set, and front is null exactly when it has no nodes |
| LinkedFifo.Initialize | prerecordsink/Prerecord_Files/Code_Files/gstprerecordsink.h:95-104 | front and rear are null and no node is allocated |
| LinkedFifo.InitializeIsEmpty | prerecordsink/Prerecord_Files/Code_Files/gstprerecordsink.h:95-104 | the new list is well formed and represents the empty FIFO |
| Fifo.IsEmpty | prerecordsink/Prerecord_Files/Code_Files/gstprerecordsink.h:122-124 | `is_fifo_empty` on the value-level FIFO; what it means for the pointer structure is stated by LinkedFifo.IsEmptyRefines |
| LinkedFifo.IsEmpty | prerecordsink/Prerecord_Files/Code_Files/gstprerecordsink.h:122-124 | `is_fifo_empty` as the test `front == NULL`; LinkedFifo.IsEmptyRefines states that it holds exactly when the represented FIFO is empty |
| LinkedFifo.IsEmptyRefines | prerecordsink/Prerecord_Files/Code_Files/gstprerecordsink.h:122-124 | `front == NULL` holds exactly when the represented FIFO is empty, and exactly when `rear` is null |
| LinkedFifo.Size | prerecordsink/Prerecord_Files/Code_Files/gstprerecordsink.h:108-118 | walking `next` pointers from `front` counts exactly the items of the represented FIFO |
| LinkedFifo.Push | prerecordsink/Prerecord_Files/Code_Files/gstprerecordsink.h:128-144 | the new node becomes the rear; front is kept when the list was not empty; the list stays linked |
| LinkedFifo.PushRefines | prerecordsink/Prerecord_Files/Code_Files/gstprerecordsink.h:128-144 | the pointer-level push keeps the list well formed and represents the value-level push |
| LinkedFifo.Pop | prerecordsink/Prerecord_Files/Code_Files/gstprerecordsink.h:147-162 | an empty list is unchanged; otherwise the front node's item is returned, its node is released, and rear is cleared when the list becomes empty |
| LinkedFifo.PopRefines | prerecordsink/Prerecord_Files/Code_Files/gstprerecordsink.h:147-162 | the pointer-level pop keeps the list well formed and represents the value-level pop |
| LinkedFifo.PopNth | prerecordsink/Prerecord_Files/Code_Files/gstprerecordsink.h:166-205 | the traversal that tracks the previous node unlinks exactly node `n`, represents the value-level `popNth`, moves `rear` back when the last node goes, and changes nothing when `n` is out of range |
| LinkedFifo.Free | prerecordsink/Prerecord_Files/Code_Files/gstprerecordsink.h:211-216 | popping until empty releases the represented items in order and frees every node |
| Chunks.ClearChunk | prerecordsink/Prerecord_Files/Code_Files/gstprerecordsink.c:966-973 | the copy has no PTS or DTS and keeps the chunk's bytes, memory count and flags |
| Chunks.ClearTimestamps | prerecordsink/Prerecord_Files/Code_Files/gstprerecordsink.c:962-973 | the deep copy has one chunk per original chunk, each with its timestamps cleared |
| Chunks.ClearTimestampsKeepsBytes | prerecordsink/Prerecord_Files/Code_Files/gstprerecordsink.c:962-976 | clearing timestamps keeps every byte of the batch, in order |
| Writer.Progress | prerecordsink/Prerecord_Files/Code_Files/gstprerecordsink.c:757-764 | one writer call advances by at most the remaining bytes, and by all of them when it answers OK |
| Writer.Retry | prerecordsink/Prerecord_Files/Code_Files/gstprerecordsink.c:755-775 | `skip` and `current_pos` advance together by the bytes written; an OK result means every byte was written; the loop uses up answers |
| Writer.RetryWritesInOrder | prerecordsink/Prerecord_Files/Code_Files/gstprerecordsink.c:755-775 | the resumed passes leave the file as one uninterrupted write of the bytes from `skip` to where the loop stopped |
| Writer.RetryTrace | prerecordsink/Prerecord_Files/Code_Files/gstprerecordsink.c:766-772 | the loop repeats only after FLUSHING followed by an OK preroll wait, and stops with the flow of the last answer it used |
| Writer.WriteAll | prerecordsink/Prerecord_Files/Code_Files/gstprerecordsink.c:802-845 | the loop from byte 0 writes a prefix of the data at the cursor and advances `current_pos` by its length; OK means the whole data was written |
| Writer.RetryFirstOk | prerecordsink/Prerecord_Files/Code_Files/gstprerecordsink.c:755-775 | when the writer answers OK at once, one call writes everything and uses one answer |
| Sink.Emit | prerecordsink/Prerecord_Files/Code_Files/gstprerecordsink.c:749-776 | only the file, the position and the writer script change, and position and cursor move together; on OK the data lands at the cursor |
| Sink.WriteBatch | prerecordsink/Prerecord_Files/Code_Files/gstprerecordsink.c:802-845 | an empty list is OK and writes nothing; on OK the list's bytes land at the cursor in order |
| Sink.RenderBuffer | prerecordsink/Prerecord_Files/Code_Files/gstprerecordsink.c:748-776 | on OK the buffer's bytes land at the cursor and `current_pos` advances by their number |
| Sink.Drain | prerecordsink/Prerecord_Files/Code_Files/gstprerecordsink.c:891-913 | the loop pops from the front only (what is left is a suffix of the FIFO), ends with an empty FIFO on OK, and leaves the coalescer untouched |
| Sink.Elapsed | prerecordsink/Prerecord_Files/Code_Files/gstprerecordsink.c:938 | the elapsed time is the unsigned 64-bit difference of two `GstClockTime` readings: the plain difference when the reading is not behind the start, and that difference plus 2^64 when it is |
| Sink.RecordStep | prerecordsink/Prerecord_Files/Code_Files/gstprerecordsink.c:886-923 | the Recording branch keeps configuration, store and phase, and moves position and cursor together |
| Sink.PostrecordStep | prerecordsink/Prerecord_Files/Code_Files/gstprerecordsink.c:924-953 | the start time is captured from the first reading on the first postrecord batch only; the answer is EOS exactly when the unsigned time elapsed at the second reading is at least `post-record` seconds, or the write itself answered EOS; otherwise the bootstrap counters are cleared; a non-positive `post-record` drops the batch |
| Sink.PrerecordStep | prerecordsink/Prerecord_Files/Code_Files/gstprerecordsink.c:956-1061 | the Prerecord branch keeps configuration and store, and moves position and cursor together |
| Sink.PhaseStep | prerecordsink/Prerecord_Files/Code_Files/gstprerecordsink.c:886-1064 | dispatching on `buffering` never touches the coalescer's store and keeps position and cursor together |
| Sink.Flush | prerecordsink/Prerecord_Files/Code_Files/gstprerecordsink.c:1067-1120 | nothing is pending afterwards; the store keeps its kind; a non-empty list is left empty but kept; with nothing pending the call is a no-op returning OK |
| Sink.QueueMemory | prerecordsink/Prerecord_Files/Code_Files/gstprerecordsink.c:1280-1305 | full mode stays full mode with the same capacity and leaves FIFO and phase alone; a buffer that does not fit triggers a flush first |
| Sink.QueueMemoryAll | prerecordsink/Prerecord_Files/Code_Files/gstprerecordsink.c:1177-1210 | full mode over a list keeps the store kind, capacity, FIFO and phase |
| Sink.QueueList | prerecordsink/Prerecord_Files/Code_Files/gstprerecordsink.c:1211-1222 | list mode stays list mode and moves position and cursor together |
| Sink.SyncAfter | prerecordsink/Prerecord_Files/Code_Files/gstprerecordsink.c:1225-1238 | the flow changes only when it was OK, a sync was asked for and `fsync` failed, and then it becomes ERROR |
| Sink.Render | prerecordsink/Prerecord_Files/Code_Files/gstprerecordsink.c:1249-1339 | configuration and store kind are kept; a buffer without memory changes nothing and fails only through a failing `fsync` |
| Sink.RenderList | prerecordsink/Prerecord_Files/Code_Files/gstprerecordsink.c:1146-1247 | configuration and store kind are kept; an empty list is OK and changes nothing |
| Sink.DoSeek | prerecordsink/Prerecord_Files/Code_Files/gstprerecordsink.c:613-650 | success holds exactly when the flush answered OK and the seek succeeded, and then position and cursor are the offset; nothing is pending afterwards |
| Sink.Segment | prerecordsink/Prerecord_Files/Code_Files/gstprerecordsink.c:665-697 | a non-BYTES segment, or one starting at `current_pos + current_buffer_size`, changes nothing; any other BYTES segment seeks to its start |
| Sink.FlushStop | prerecordsink/Prerecord_Files/Code_Files/gstprerecordsink.c:698-711 | the event fails exactly when a truncation was attempted and failed; otherwise nothing is pending and the list is empty; truncation empties the file; without the seek, file and position are untouched |
| Sink.EndOfStream | prerecordsink/Prerecord_Files/Code_Files/gstprerecordsink.c:712-715 | nothing is pending afterwards, and the event fails exactly when the flush does |
| Sink.Open | prerecordsink/Prerecord_Files/Code_Files/gstprerecordsink.c:449-513 | the file starts empty at position 0 with nothing pending; a zero `buffer-size` becomes the default unless unbuffered; FULL gets the byte buffer at that capacity, UNBUFFERED no store, the other modes a list |
| SinkProperties.FlushKeepsInv | prerecordsink/Prerecord_Files/Code_Files/gstprerecordsink.c:1067-1120 | a flush keeps `current_pos` equal to the cursor and `current_buffer_size` equal to the bytes held back |
| SinkProperties.QueueMemoryKeepsInv | prerecordsink/Prerecord_Files/Code_Files/gstprerecordsink.c:1280-1305 | queueing in full mode never overfills the allocated buffer |
| SinkProperties.QueueMemoryAllKeepsInv | prerecordsink/Prerecord_Files/Code_Files/gstprerecordsink.c:1177-1210 | the full-mode list loop keeps the coalescer invariant |
| SinkProperties.QueueListKeepsInv | prerecordsink/Prerecord_Files/Code_Files/gstprerecordsink.c:1211-1222 | list mode counts exactly the bytes of the pending list |
| SinkProperties.PhaseStepKeepsInv | prerecordsink/Prerecord_Files/Code_Files/gstprerecordsink.c:886-1064 | the phase machine keeps the coalescer invariant |
| SinkProperties.RenderKeepsInv | prerecordsink/Prerecord_Files/Code_Files/gstprerecordsink.c:1249-1339 | `render` keeps the coalescer invariant |
| SinkProperties.RenderListKeepsInv | prerecordsink/Prerecord_Files/Code_Files/gstprerecordsink.c:1146-1247 | `render_list` keeps the coalescer invariant |
| SinkProperties.DoSeekKeepsInv | prerecordsink/Prerecord_Files/Code_Files/gstprerecordsink.c:613-650 | a seek, successful or not, keeps the coalescer invariant |
| SinkProperties.EventsKeepInv | prerecordsink/Prerecord_Files/Code_Files/gstprerecordsink.c:665-715 | SEGMENT, FLUSH_STOP and EOS keep the coalescer invariant |
| Sink.QueryPosition | prerecordsink/Prerecord_Files/Code_Files/gstprerecordsink.c:557-571 | the POSITION query; what the reported value means is stated by SinkProperties.QueryIsStreamCursor |
| SinkProperties.QueryIsStreamCursor | prerecordsink/Prerecord_Files/Code_Files/gstprerecordsink.c:557-571 | the POSITION query in DEFAULT or BYTES format reports where the cursor will be once pending data reaches the file; other formats are refused |
| SinkProperties.FlushReachesQueriedPosition | prerecordsink/Prerecord_Files/Code_Files/gstprerecordsink.c:1067-1120 | a flush the writer accepts (full mode, or list mode while recording with nothing retained) moves `current_pos` to the position reported before it and writes the pending bytes at the cursor |
| SinkProperties.SegmentSetsPosition | prerecordsink/Prerecord_Files/Code_Files/gstprerecordsink.c:665-697 | after a BYTES segment succeeds, the reported position is the segment start |
| SinkProperties.EmptyStream | prerecordsink/Prerecord_Files/Code_Files/gstprerecordsink.c:1067-1120 | with nothing pending, the stream is the file |
| SinkProperties.EmitOk | prerecordsink/Prerecord_Files/Code_Files/gstprerecordsink.c:748-776 | a write the writer accepts at once lands whole at the cursor and uses one answer |
| SinkProperties.FlushDirect | prerecordsink/Prerecord_Files/Code_Files/gstprerecordsink.c:1067-1120 | a flush in a direct state with an accepting writer puts the whole stream into the file and uses at most one answer |
| SinkProperties.QueueMemoryKeepsStream | prerecordsink/Prerecord_Files/Code_Files/gstprerecordsink.c:1280-1305 | whether the buffer is copied in, flushed ahead of or written directly, the stream becomes the old stream followed by its bytes |
| SinkProperties.QueueListKeepsStream | prerecordsink/Prerecord_Files/Code_Files/gstprerecordsink.c:1307-1316 | in a direct state (Recording with nothing retained, list mode), appending to the pending list, with or without the threshold flush, extends the stream by the new bytes |
| SinkProperties.RenderKeepsStream | prerecordsink/Prerecord_Files/Code_Files/gstprerecordsink.c:1249-1339 | in a direct state (full mode, or Recording with nothing retained), with an accepting writer, one buffer through `render` extends the stream by exactly its bytes whichever way it is routed, and a buffer without memory changes nothing |
| SinkProperties.RecordStepOk | prerecordsink/Prerecord_Files/Code_Files/gstprerecordsink.c:886-923 | while recording with nothing retained and an accepting writer, the phase machine is a plain write of the batch |
| SinkProperties.QueueMemoryAllKeepsStream | prerecordsink/Prerecord_Files/Code_Files/gstprerecordsink.c:1177-1210 | the full-mode list loop extends the stream by the list's bytes in order |
| SinkProperties.RenderListKeepsStream | prerecordsink/Prerecord_Files/Code_Files/gstprerecordsink.c:1146-1247 | while recording with nothing retained, one list through `render_list` extends the stream by exactly its bytes |
| SinkProperties.RenderListRereadsClock | prerecordsink/Prerecord_Files/Code_Files/gstprerecordsink.c:1158-1170 | the flush and the list's own phase step read the clock separately: in Postrecord, a SYNC_AFTER list whose deadline passes between the two readings is written after the pending list and answered with EOS |
| SinkProperties.RenderAllKeepsStream | prerecordsink/Prerecord_Files/Code_Files/gstprerecordsink.c:1249-1339 | any sequence of well-formed buffers through `render`, SYNC_AFTER buffers included when `fsync` succeeds, extends the stream by their bytes, in order |
| SinkProperties.SessionWritesEveryByteOnce | prerecordsink/Prerecord_Files/Code_Files/gstprerecordsink.c:449-513 | opening in any buffer mode while recording, rendering well-formed buffers (SYNC_AFTER included, with `fsync` succeeding) and ending the stream leaves exactly the buffers' bytes in the file, in order, with nothing pending |
| SinkProperties.QueueMemoryRouting | prerecordsink/Prerecord_Files/Code_Files/gstprerecordsink.c:1280-1305 | a buffer that fits beside what is pending is copied in without any write; otherwise the pending bytes are flushed first and a failed flush ends the call; a buffer larger than the allocation then goes straight to the file; pending bytes never exceed the allocation |
| SinkProperties.QueueListRouting | prerecordsink/Prerecord_Files/Code_Files/gstprerecordsink.c:1307-1316 | the buffer joins the pending list and its bytes are counted; a flush follows exactly when the count exceeds `buffer-size` and leaves the list empty; otherwise nothing is written |
| SinkProperties.FlushStopRestartsFile | prerecordsink/Prerecord_Files/Code_Files/gstprerecordsink.c:698-704 | on a seekable file away from 0, with flush, seek and truncation succeeding, FLUSH_STOP leaves an empty file at position 0 |
| SinkProperties.FlushStopPostrecordDropsList | prerecordsink/Prerecord_Files/Code_Files/gstprerecordsink.c:698-711 | in Postrecord with `post-record` not positive, FLUSH_STOP's seek flushes a pending list through a phase step that does nothing, so the list is emptied without any writer call |
| SinkProperties.FlushStopDropsPending | prerecordsink/Prerecord_Files/Code_Files/gstprerecordsink.c:698-711 | at position 0 or on an unseekable file, FLUSH_STOP writes nothing and drops what was pending |
| PhaseProperties.WriteBatchOk | prerecordsink/Prerecord_Files/Code_Files/gstprerecordsink.c:802-845 | with an accepting writer a batch lands whole at the cursor using at most one answer |
| PhaseProperties.DrainWritesOldestFirst | prerecordsink/Prerecord_Files/Code_Files/gstprerecordsink.c:891-913 | with an accepting writer, draining writes every retained batch, oldest first, and empties the FIFO |
| PhaseProperties.RecordingWritesBacklogFirst | prerecordsink/Prerecord_Files/Code_Files/gstprerecordsink.c:886-923 | switching to Recording writes the whole backlog, oldest first, then the incoming batch |
| PhaseProperties.DrainStopsAtFailure | prerecordsink/Prerecord_Files/Code_Files/gstprerecordsink.c:891-913 | a drain that does not end OK stopped at some retained batch: the batches before it were written whole, a prefix of it was written, it has left the FIFO for good, and exactly the batches behind it stay retained |
| PhaseProperties.RecordingFailureStops | prerecordsink/Prerecord_Files/Code_Files/gstprerecordsink.c:886-913 | whenever the drain does not end OK, the Recording step returns the drain's state and flow at once, so the incoming batch is not written |
| PhaseProperties.RecordingFailureLosesHead | prerecordsink/Prerecord_Files/Code_Files/gstprerecordsink.c:893-908 | the case where the first writer answer fails on the oldest batch: that flow is returned, the batch is not put back, later batches stay retained, and the incoming batch is not written |
| PhaseProperties.PostrecordDeadlineFromFirstBatch | prerecordsink/Prerecord_Files/Code_Files/gstprerecordsink.c:924-953 | the deadline counts from the reading taken when the first postrecord batch arrives; each of the first two batches gets EOS exactly when the unsigned time elapsed since that reading, measured after its write, is at least `post-record` seconds; both batches are written |
| PhaseProperties.PostrecordKeepsWindow | prerecordsink/Prerecord_Files/Code_Files/gstprerecordsink.c:924-953 | a Postrecord pass with `post-record` not positive, or one that reaches its deadline, leaves the bootstrap flag and counter, the window clock, the eviction flag and the FIFO as they were |
| PhaseProperties.PostrecordEosMasksWriteError | prerecordsink/Prerecord_Files/Code_Files/gstprerecordsink.c:934-948 | once the deadline has passed the answer is EOS, whatever the write returned |
| PhaseProperties.PostrecordClockBehindStartEnds | prerecordsink/Prerecord_Files/Code_Files/gstprerecordsink.c:938-948 | a clock reading behind the Postrecord start wraps to a huge unsigned elapsed time, so the answer is EOS |
| PhaseProperties.BootstrapWritesFirstTwo | prerecordsink/Prerecord_Files/Code_Files/gstprerecordsink.c:956-982 | in Prerecord the first two batches are written straight to the file; the second ends the bootstrap and disarms both timers; the FIFO is untouched |
| PhaseProperties.PrerecordRetains | prerecordsink/Prerecord_Files/Code_Files/gstprerecordsink.c:984-1056 | after the bootstrap a batch is retained and not written; the oldest batch is evicted first when armed; the window clock starts at the first reading of the first retained batch; the flag re-arms exactly when the unsigned time elapsed at the second reading exceeds `pre-record` seconds; that clock never moves once started |
| PhaseProperties.PrerecordClockBehindStartArms | prerecordsink/Prerecord_Files/Code_Files/gstprerecordsink.c:1032-1039 | a clock reading behind the window clock's start wraps to a huge unsigned elapsed time, so the eviction flag is armed |
| PhaseProperties.WindowGrows | prerecordsink/Prerecord_Files/Code_Files/gstprerecordsink.c:999-1056 | before the deadline nothing is evicted, and the FIFO grows by every batch in arrival order |
| PhaseProperties.WindowGrowsTail | prerecordsink/Prerecord_Files/Code_Files/gstprerecordsink.c:999-1056 | the rest of a growing run, after its first batch was retained |
| PhaseProperties.WindowSlides | prerecordsink/Prerecord_Files/Code_Files/gstprerecordsink.c:1007-1056 | once armed and past the deadline, every batch evicts the oldest; the FIFO keeps its length and holds the latest batches |
| PhaseProperties.WindowSlidesTail | prerecordsink/Prerecord_Files/Code_Files/gstprerecordsink.c:1007-1056 | the rest of a sliding run, after its first batch evicted the oldest |

## Left out

- Sink.RecordStep, Sink.PrerecordStep, Sink.PhaseStep: their own contracts state only what a step leaves untouched. The behaviour of each branch is stated by the PhaseProperties lemmas.
- Sink.Render, Sink.RenderList, Sink.QueueMemory, Sink.QueueMemoryAll, Sink.QueueList: their own contracts state the frame. What reaches the file is stated by the SinkProperties stream lemmas. These cover the cases where a flush writes straight to the file: full mode for `render`, and Recording with nothing retained for `render_list` and the list store. In Prerecord a list flush feeds the FIFO instead, as `PrerecordRetains` states.
- Writer.Retry: when the answer script runs out, the loop ends with FLUSHING. This stands for the pipeline shutting down while the sink waits; a script is finite, a real pipeline need not be.
- The writer's own internals are not modelled (`gst_writev_buffer`, `gst_writev_buffer_list`, `gst_writev_mem`, the transient-error timeout, `O_SYNC`). Only their answers are.
- Elapsed time is compared as integers of nanoseconds against `limit * 10^9`. The source's `double` division and rounding are not modelled.
- `ftello` after a successful seek is taken to return the new offset (`gst_prerecord_sink_get_current_offset`, c:778-800). Its failure path is not modelled.
- The `fsync` retry on `EINTR` is folded into one success flag.
- Unsigned wrap-around is modelled for clock differences only. It is not modelled for the `guint size` sum in `render_list` or for 64-bit file positions.
- `GST_IS_BUFFER_LIST` checks and a missing system clock (both return ERROR) are not modelled: every batch here is a valid list, and the clock is always there.
- Allocation failure in `initializeFIFO` and `push` is not modelled. Both end the process with `exit` (h:97-100, h:130-133), so `initializeFIFO` never returns NULL and the check for that at c:991 can never fire.
- The phase flags are `static` variables in the source. They are shared by every sink instance and survive closing and reopening. The model keeps them in the sink state, and `Open` starts from a fresh phase and no FIFO, which is the state after the first open only.
- Append mode (`"ab"`) is not modelled, nor reopening while an earlier session's store still exists. Opening always truncates.
- Property handling is not modelled (`set_property`/`get_property`). This includes the missing `break` at c:394-398: setting `pre-record` also overwrites `post-record` with the same value. `Config` takes the two as independent values. Nor are URI handling, `start`/`stop`, `unlock`, close, logging and element registration.
- The FORMATS, URI and SEEKING queries are not modelled. The sink answers them itself (c:575-596) from fixed formats, the URI and `seekable`, none of which the routing core changes. Other queries and other events go to the base class and are not modelled either.
- Deep copies and reference counting are not modelled: a batch is a value.
- The FIFO's `popNth` and `freeFIFO` are modelled, but nothing in the sink calls them.

=== FILE: chunks.dfy ===
/**
  Chunks and chunk batches: the data units the sink receives.

  A chunk stands for one `GstBuffer`: its bytes (the concatenation of its
  memories), the number of memories it holds, its presentation and decode
  timestamps and its SYNC_AFTER flag. A batch stands for one
  `GstBufferList`: an ordered sequence of chunks.
 */
module Chunks {
  import opened Options

  newtype byte = x: int | 0 <= x < 256

  datatype Chunk = Chunk(
    data: seq<byte>,
    nMem: nat,
    pts: Option<nat>,
    dts: Option<nat>,
    syncAfter: bool)

  type Batch = seq<Chunk>

  /** A buffer's bytes come from its memories: a buffer without memory has no bytes. */
  predicate WellFormed(c: Chunk)
  {
    c.nMem == 0 ==> c.data == []
  }

  /** The bytes of a batch: its chunks' bytes, concatenated in order. */
  function Bytes(b: Batch): seq<byte>
  {
    if b == [] then [] else b[0].data + Bytes(b[1..])
  }

  /** The bytes of a sequence of batches, oldest batch first. */
  function AllBytes(q: seq<Batch>): seq<byte>
  {
    if q == [] then [] else Bytes(q[0]) + AllBytes(q[1..])
  }

  /** True when some chunk of the batch carries the SYNC_AFTER flag. */
  predicate HasSyncAfter(b: Batch)
  {
    exists i :: 0 <= i < |b| && b[i].syncAfter
  }

  /** A chunk with PTS and DTS set to "no time". */
  function ClearChunk(c: Chunk): (r: Chunk)
    ensures r.pts == None && r.dts == None
    ensures r.data == c.data && r.nMem == c.nMem && r.syncAfter == c.syncAfter
  {
    c.(pts := None, dts := None)
  }

  /**
    The deep copy the sink makes before a batch is written directly in the
    prerecord bootstrap or kept in the retention FIFO: every chunk keeps its
    bytes and flags and loses its timestamps.
   */
  function ClearTimestamps(b: Batch): (r: Batch)
    ensures |r| == |b|
    ensures forall i :: 0 <= i < |b| ==> r[i] == ClearChunk(b[i])
  {
    if b == [] then [] else [ClearChunk(b[0])] + ClearTimestamps(b[1..])
  }

  lemma BytesAppend(a: Batch, b: Batch)
    ensures Bytes(a + b) == Bytes(a) + Bytes(b)
  {
    if a == [] {
      assert a + b == b;
    } else {
      assert (a + b)[1..] == a[1..] + b;
      BytesAppend(a[1..], b);
    }
  }

  lemma AllBytesAppend(p: seq<Batch>, q: seq<Batch>)
    ensures AllBytes(p + q) == AllBytes(p) + AllBytes(q)
  {
    if p == [] {
      assert p + q == q;
    } else {
      assert (p + q)[1..] == p[1..] + q;
      AllBytesAppend(p[1..], q);
    }
  }

  /** Clearing timestamps keeps every byte, in order. */
  lemma {:induction false} ClearTimestampsKeepsBytes(b: Batch)
    ensures Bytes(ClearTimestamps(b)) == Bytes(b)
  {
    if b != [] {
      ClearTimestampsKeepsBytes(b[1..]);
      assert ClearTimestamps(b)[1..] == ClearTimestamps(b[1..]);
    }
  }
}

=== FILE: fifo.dfy ===
/**
  The retention FIFO (`BufferListFIFO`) as a value: a sequence of items,
  oldest first. Each operation mirrors one helper of the C header; the
  pointer structure behind them is modelled in module LinkedFifo, whose
  lemmas show that it implements exactly these operations.
 */
module Fifo {
  import opened Options

  /** `initializeFIFO`: a FIFO with no nodes. */
  function Initialize<T>(): (q: seq<T>)
    ensures |q| == 0
  {
    []
  }

  /** `getFIFOSize`: the number of nodes. */
  function Size<T>(q: seq<T>): (n: nat)
    ensures n == 0 <==> q == []
  {
    |q|
  }

  /** `is_fifo_empty`. */
  predicate IsEmpty<T>(q: seq<T>)
  {
    q == []
  }

  /** `push`: the item becomes the new tail; earlier items are untouched. */
  function Push<T>(q: seq<T>, x: T): (r: seq<T>)
    ensures |r| == |q| + 1
    ensures r[|q|] == x
    ensures forall i :: 0 <= i < |q| ==> r[i] == q[i]
  {
    q + [x]
  }

  /**
    `pop`: on an empty FIFO nothing is returned and nothing changes;
    otherwise the head is returned and the rest keeps its order.
   */
  function Pop<T>(q: seq<T>): (r: (Option<T>, seq<T>))
    ensures q == [] ==> r.0 == None && r.1 == q
    ensures q != [] ==> r.0 == Some(q[0]) && [q[0]] + r.1 == q
  {
    if q == [] then (None, q) else (Some(q[0]), q[1..])
  }

  /**
    `popNth`: when `n` names a node, that item is returned and removed and
    the others keep their order; otherwise nothing is returned and nothing
    changes.
   */
  function PopNth<T>(q: seq<T>, n: nat): (r: (Option<T>, seq<T>))
    ensures n < |q| ==> r.0 == Some(q[n]) && |r.1| == |q| - 1
    ensures n < |q| ==> forall i :: 0 <= i < n ==> r.1[i] == q[i]
    ensures n < |q| ==> forall i :: n <= i < |r.1| ==> r.1[i] == q[i + 1]
    ensures n >= |q| ==> r.0 == None && r.1 == q
  {
    if n < |q| then (Some(q[n]), q[..n] + q[n + 1..]) else (None, q)
  }

  /** Removing the first node is the same as `pop`. */
  lemma PopNthZeroIsPop<T>(q: seq<T>)
    ensures PopNth(q, 0) == Pop(q)
  {
    if q != [] {
      assert q[..0] + q[1..] == q[1..];
    }
  }

  /**
    `freeFIFO`: pop until empty. The result lists the released items in
    the order they were popped, and the FIFO ends empty.
   */
  function Free<T>(q: seq<T>): (r: (seq<T>, seq<T>))
    ensures r.1 == []
    ensures r.0 == q
    decreases |q|
  {
    if IsEmpty(q) then ([], q)
    else
      var (x, rest) := Pop(q);
      var (released, left) := Free(rest);
      ([x.value] + released, left)
  }
}

=== FILE: linked_fifo.dfy ===
/**
  The retention FIFO as the C header builds it: singly linked nodes in a
  heap, a `front` and a `rear` pointer. Freed nodes leave the heap; new
  nodes take the next unused address.

  `Repr(f, addrs)` is the ghost abstraction: following `next` from
  `front` visits exactly the addresses `addrs`, the last node's `next` is
  NULL, `rear` is the last address, and the heap holds no other node.
  `Items(f, addrs)` reads the items along that chain. Each lemma below
  shows that one C helper, on a represented list, yields a represented
  list whose items are what the value-level operation in module Fifo
  gives.
 */
module LinkedFifo {
  import opened Options
  import opened Chunks
  import Fifo

  datatype Ptr = Null | Ref(addr: nat)

  datatype Node<T> = Node(item: T, next: Ptr)

  datatype List<T> = List(heap: map<nat, Node<T>>, front: Ptr, rear: Ptr, nextAddr: nat)

  /**
    The pointer invariant the helpers rely on: `front` and `rear` are both
    NULL or both point at live nodes.
   */
  predicate Linked<T>(f: List<T>)
  {
    && (f.front == Null <==> f.rear == Null)
    && (f.front.Ref? ==> f.front.addr in f.heap)
    && (f.rear.Ref? ==> f.rear.addr in f.heap)
  }

  /** Addresses along the chain grow strictly: fresh nodes get larger ones. */
  ghost predicate Increasing(addrs: seq<nat>)
  {
    forall i, j :: 0 <= i < j < |addrs| ==> addrs[i] < addrs[j]
  }

  /** Every chain address is a live node below the next unused address. */
  ghost predicate Allocated<T>(f: List<T>, addrs: seq<nat>)
  {
    forall i :: 0 <= i < |addrs| ==> addrs[i] < f.nextAddr && addrs[i] in f.heap
  }

  /** No live node lies off the chain: nothing leaks. */
  ghost predicate NoGarbage<T>(f: List<T>, addrs: seq<nat>)
  {
    forall a :: a in f.heap ==> a in addrs
  }

  /** Each node's `next` is the following address; the last one's is NULL. */
  ghost predicate Chained<T>(f: List<T>, addrs: seq<nat>)
    requires Allocated(f, addrs)
  {
    && (forall i :: 0 <= i < |addrs| - 1 ==> f.heap[addrs[i]].next == Ref(addrs[i + 1]))
    && (|addrs| > 0 ==> f.heap[addrs[|addrs| - 1]].next == Null)
  }

  /** `front` is the first address and `rear` the last, both NULL when empty. */
  ghost predicate Ends<T>(f: List<T>, addrs: seq<nat>)
  {
    && f.front == (if addrs == [] then Null else Ref(addrs[0]))
    && f.rear == (if addrs == [] then Null else Ref(addrs[|addrs| - 1]))
  }

  ghost predicate Repr<T>(f: List<T>, addrs: seq<nat>)
  {
    && Increasing(addrs)
    && Allocated(f, addrs)
    && NoGarbage(f, addrs)
    && Chained(f, addrs)
    && Ends(f, addrs)
  }

  ghost function Items<T>(f: List<T>, addrs: seq<nat>): seq<T>
    requires Allocated(f, addrs)
  {
    seq(|addrs|, i requires 0 <= i < |addrs| => f.heap[addrs[i]].item)
  }

  lemma ReprIsLinked<T>(f: List<T>, addrs: seq<nat>)
    requires Repr(f, addrs)
    ensures Linked(f)
    ensures f.front == Null <==> addrs == []
  {
  }

  /** `initializeFIFO`: front and rear NULL, no nodes. */
  function Initialize<T>(): (f: List<T>)
    ensures f.front == Null && f.rear == Null && f.heap == map[]
  {
    List(map[], Null, Null, 0)
  }

  lemma InitializeIsEmpty<T>()
    ensures Repr(Initialize<T>(), [])
    ensures Items(Initialize<T>(), []) == Fifo.Initialize<T>()
  {
  }

  /** `is_fifo_empty`. */
  predicate IsEmpty<T>(f: List<T>)
  {
    f.front == Null
  }

  /** `is_fifo_empty` holds exactly when the abstract FIFO is empty. */
  lemma IsEmptyRefines<T>(f: List<T>, addrs: seq<nat>)
    requires Repr(f, addrs)
    ensures IsEmpty(f) <==> Fifo.IsEmpty(Items(f, addrs))
    ensures IsEmpty(f) <==> f.rear == Null
  {
  }

  /** `getFIFOSize`: walk from `front` and count the nodes. */
  method Size<T>(f: List<T>, ghost addrs: seq<nat>) returns (size: nat)
    requires Repr(f, addrs)
    ensures size == Fifo.Size(Items(f, addrs))
  {
    size := 0;
    var current := f.front;
    while current != Null
      invariant size <= |addrs|
      invariant current == (if size < |addrs| then Ref(addrs[size]) else Null)
      decreases |addrs| - size
    {
      current := f.heap[current.addr].next;
      size := size + 1;
    }
  }

  /** `push`: a new node at the next free address becomes the rear. */
  function Push<T>(f: List<T>, x: T): (r: List<T>)
    requires Linked(f)
    ensures Linked(r)
    ensures r.rear == Ref(f.nextAddr) && r.nextAddr == f.nextAddr + 1
    ensures f.front != Null ==> r.front == f.front
  {
    var node := Node(x, Null);
    if IsEmpty(f) then
      List(f.heap[f.nextAddr := node], Ref(f.nextAddr), Ref(f.nextAddr), f.nextAddr + 1)
    else
      var h := f.heap[f.rear.addr := f.heap[f.rear.addr].(next := Ref(f.nextAddr))];
      List(h[f.nextAddr := node], f.front, Ref(f.nextAddr), f.nextAddr + 1)
  }

  lemma PushRefines<T>(f: List<T>, addrs: seq<nat>, x: T)
    requires Repr(f, addrs)
    ensures Linked(f)
    ensures Repr(Push(f, x), addrs + [f.nextAddr])
    ensures Items(Push(f, x), addrs + [f.nextAddr]) == Fifo.Push(Items(f, addrs), x)
  {
    var r := Push(f, x);
    var a' := addrs + [f.nextAddr];
    PushShape(f, addrs, x);
    PushNoGarbage(f, addrs, x);
    PushChained(f, addrs, x);
    assert Items(r, a') == Items(f, addrs) + [x];
  }

  lemma PushShape<T>(f: List<T>, addrs: seq<nat>, x: T)
    requires Increasing(addrs) && Allocated(f, addrs) && Ends(f, addrs) && Linked(f)
    ensures Increasing(addrs + [f.nextAddr])
    ensures Allocated(Push(f, x), addrs + [f.nextAddr])
    ensures Ends(Push(f, x), addrs + [f.nextAddr])
  {
    var a' := addrs + [f.nextAddr];
    assert forall i :: 0 <= i < |addrs| ==> a'[i] == addrs[i];
  }

  lemma PushNoGarbage<T>(f: List<T>, addrs: seq<nat>, x: T)
    requires NoGarbage(f, addrs) && Ends(f, addrs) && Linked(f)
    ensures NoGarbage(Push(f, x), addrs + [f.nextAddr])
  {
    var r := Push(f, x);
    var a' := addrs + [f.nextAddr];
    forall a | a in r.heap
      ensures a in a'
    {
      if a != f.nextAddr {
        assert a in f.heap;
        var k :| 0 <= k < |addrs| && addrs[k] == a;
        assert a'[k] == a;
      }
    }
  }

  lemma PushChained<T>(f: List<T>, addrs: seq<nat>, x: T)
    requires Repr(f, addrs)
    ensures Allocated(Push(f, x), addrs + [f.nextAddr])
    ensures Chained(Push(f, x), addrs + [f.nextAddr])
    ensures forall i :: 0 <= i < |addrs| ==> Push(f, x).heap[addrs[i]].item == f.heap[addrs[i]].item
  {
    var r := Push(f, x);
    var a' := addrs + [f.nextAddr];
    var n := |addrs|;
    PushShape(f, addrs, x);
    assert f.nextAddr !in f.heap;
    forall i | 0 <= i < n - 1
      ensures r.heap[a'[i]].next == Ref(a'[i + 1])
    {
      assert a'[i] == addrs[i] && a'[i + 1] == addrs[i + 1];
      assert addrs[i] != addrs[n - 1];
    }
  }

  /**
    `pop`: an empty list is returned unchanged with no item; otherwise the
    front node is unlinked and freed, and `rear` is reset to NULL when the
    list becomes empty.
   */
  function Pop<T>(f: List<T>): (r: (Option<T>, List<T>))
    requires Linked(f)
    ensures IsEmpty(f) ==> r == (None, f)
    ensures !IsEmpty(f) ==> r.0 == Some(f.heap[f.front.addr].item)
    ensures !IsEmpty(f) ==> r.1.heap.Keys == f.heap.Keys - {f.front.addr}
    ensures r.1.front == Null ==> r.1.rear == Null
  {
    if IsEmpty(f) then (None, f)
    else
      var node := f.heap[f.front.addr];
      var rear := if node.next == Null then Null else f.rear;
      (Some(node.item), List(f.heap - {f.front.addr}, node.next, rear, f.nextAddr))
  }

  lemma PopRefines<T>(f: List<T>, addrs: seq<nat>)
    requires Repr(f, addrs)
    ensures Linked(f)
    ensures Repr(Pop(f).1, if addrs == [] then [] else addrs[1..])
    ensures (Pop(f).0, Items(Pop(f).1, if addrs == [] then [] else addrs[1..]))
            == Fifo.Pop(Items(f, addrs))
  {
    if addrs != [] {
      var r := Pop(f).1;
      var rest := addrs[1..];
      PopShape(f, addrs);
      PopNoGarbage(f, addrs);
      PopChained(f, addrs);
      assert Items(r, rest) == Items(f, addrs)[1..];
    }
  }

  lemma PopShape<T>(f: List<T>, addrs: seq<nat>)
    requires addrs != [] && Increasing(addrs) && Allocated(f, addrs) && Chained(f, addrs) && Ends(f, addrs)
    requires Linked(f)
    ensures Increasing(addrs[1..])
    ensures Allocated(Pop(f).1, addrs[1..])
    ensures Ends(Pop(f).1, addrs[1..])
  {
    var rest := addrs[1..];
    var r := Pop(f).1;
    assert forall i :: 0 <= i < |rest| ==> rest[i] == addrs[i + 1];
    forall i | 0 <= i < |rest|
      ensures rest[i] in r.heap
    {
      assert addrs[0] < addrs[i + 1];
    }
  }

  lemma PopNoGarbage<T>(f: List<T>, addrs: seq<nat>)
    requires addrs != [] && NoGarbage(f, addrs) && Ends(f, addrs) && Linked(f)
    ensures NoGarbage(Pop(f).1, addrs[1..])
  {
    var r := Pop(f).1;
    var rest := addrs[1..];
    forall a | a in r.heap
      ensures a in rest
    {
      assert a in f.heap && a != addrs[0];
      var k :| 0 <= k < |addrs| && addrs[k] == a;
      assert rest[k - 1] == a;
    }
  }

  lemma PopChained<T>(f: List<T>, addrs: seq<nat>)
    requires addrs != [] && Repr(f, addrs)
    ensures Allocated(Pop(f).1, addrs[1..])
    ensures Chained(Pop(f).1, addrs[1..])
  {
    var r := Pop(f).1;
    var rest := addrs[1..];
    PopShape(f, addrs);
    forall i | 0 <= i < |rest| - 1
      ensures r.heap[rest[i]].next == Ref(rest[i + 1])
    {
      assert rest[i] == addrs[i + 1] && rest[i + 1] == addrs[i + 2];
    }
  }

  /**
    `popNth`: walk to the node at index `n` keeping the previous node,
    unlink it (through `prev->next`, or `front` when it is the first) and
    free it; when it was the rear, `rear` becomes the previous node. When
    there is no such node nothing changes.
   */
  method PopNth<T>(f: List<T>, n: nat, ghost addrs: seq<nat>)
    returns (x: Option<T>, r: List<T>, ghost addrs': seq<nat>)
    requires Repr(f, addrs)
    ensures Repr(r, addrs')
    ensures (x, Items(r, addrs')) == Fifo.PopNth(Items(f, addrs), n)
    ensures n < |addrs| ==> addrs' == addrs[..n] + addrs[n + 1..]
    ensures n == |addrs| - 1 ==> r.rear == (if n == 0 then Null else Ref(addrs[n - 1]))
    ensures n >= |addrs| ==> r == f
  {
    if IsEmpty(f) {
      return None, f, addrs;
    }
    var current := f.front;
    var prev := Null;
    var count := 0;
    while current != Null && count != n
      invariant count <= n && count <= |addrs|
      invariant current == (if count < |addrs| then Ref(addrs[count]) else Null)
      invariant prev == (if count == 0 then Null else Ref(addrs[count - 1]))
      decreases |addrs| - count
    {
      prev := current;
      current := f.heap[current.addr].next;
      count := count + 1;
    }
    if current == Null {
      return None, f, addrs;
    }
    var node := f.heap[current.addr];
    var heap := f.heap;
    var front := f.front;
    if prev != Null {
      heap := heap[prev.addr := heap[prev.addr].(next := node.next)];
    } else {
      front := node.next;
    }
    var rear := f.rear;
    if current == f.rear {
      rear := prev;
    }
    heap := heap - {current.addr};
    r := List(heap, front, rear, f.nextAddr);
    x := Some(node.item);
    addrs' := addrs[..n] + addrs[n + 1..];
    PopNthRepr(f, addrs, n, r);
  }

  /** The list `PopNth` builds when it removes the node at index `n`. */
  ghost predicate Unlinked<T>(f: List<T>, addrs: seq<nat>, n: nat, r: List<T>)
    requires Allocated(f, addrs) && n < |addrs|
  {
    && r.nextAddr == f.nextAddr
    && r.front == (if n == 0 then f.heap[addrs[0]].next else f.front)
    && r.rear == (if n == |addrs| - 1 then (if n == 0 then Null else Ref(addrs[n - 1])) else f.rear)
    && r.heap == (if n == 0 then f.heap
                  else f.heap[addrs[n - 1] := f.heap[addrs[n - 1]].(next := f.heap[addrs[n]].next)])
                 - {addrs[n]}
  }

  /** The list `PopNth` builds represents the addresses without the `n`-th. */
  lemma PopNthRepr<T>(f: List<T>, addrs: seq<nat>, n: nat, r: List<T>)
    requires Repr(f, addrs) && n < |addrs| && Unlinked(f, addrs, n, r)
    ensures Repr(r, addrs[..n] + addrs[n + 1..])
    ensures (Some(f.heap[addrs[n]].item), Items(r, addrs[..n] + addrs[n + 1..]))
            == Fifo.PopNth(Items(f, addrs), n)
  {
    var a' := addrs[..n] + addrs[n + 1..];
    PopNthShape(f, addrs, n, r);
    PopNthNoGarbage(f, addrs, n, r);
    PopNthChained(f, addrs, n, r);
    PopNthItems(f, addrs, n, r);
  }

  lemma PopNthItems<T>(f: List<T>, addrs: seq<nat>, n: nat, r: List<T>)
    requires Allocated(f, addrs) && n < |addrs| && Allocated(r, addrs[..n] + addrs[n + 1..])
    requires forall i :: 0 <= i < |addrs| && i != n ==> addrs[i] in r.heap && r.heap[addrs[i]].item == f.heap[addrs[i]].item
    ensures Items(r, addrs[..n] + addrs[n + 1..]) == Items(f, addrs)[..n] + Items(f, addrs)[n + 1..]
  {
    var a' := addrs[..n] + addrs[n + 1..];
    var it := Items(f, addrs);
    forall i | 0 <= i < |a'|
      ensures Items(r, a')[i] == (it[..n] + it[n + 1..])[i]
    {
      if i < n {
        assert a'[i] == addrs[i];
      } else {
        assert a'[i] == addrs[i + 1];
      }
    }
  }

  lemma PopNthShape<T>(f: List<T>, addrs: seq<nat>, n: nat, r: List<T>)
    requires Repr(f, addrs) && n < |addrs| && Unlinked(f, addrs, n, r)
    ensures Increasing(addrs[..n] + addrs[n + 1..])
    ensures Allocated(r, addrs[..n] + addrs[n + 1..])
    ensures Ends(r, addrs[..n] + addrs[n + 1..])
    ensures forall i :: 0 <= i < |addrs| && i != n ==> addrs[i] in r.heap && r.heap[addrs[i]].item == f.heap[addrs[i]].item
  {
    var a' := addrs[..n] + addrs[n + 1..];
    assert forall i :: 0 <= i < n ==> a'[i] == addrs[i];
    assert forall i :: n <= i < |a'| ==> a'[i] == addrs[i + 1];
    PopNthLive(f, addrs, n, r);
    assert Allocated(r, a') by {
      forall i | 0 <= i < |a'|
        ensures a'[i] in r.heap && a'[i] < r.nextAddr
      {
        if i < n { assert a'[i] == addrs[i]; } else { assert a'[i] == addrs[i + 1]; }
      }
    }
    assert f.heap[addrs[0]].next == (if |addrs| > 1 then Ref(addrs[1]) else Null);
    PopNthEnds(f, addrs, n, r);
  }

  /** Every node other than the removed one survives with its item. */
  lemma PopNthLive<T>(f: List<T>, addrs: seq<nat>, n: nat, r: List<T>)
    requires Increasing(addrs) && Allocated(f, addrs) && n < |addrs| && Unlinked(f, addrs, n, r)
    ensures forall i :: 0 <= i < |addrs| && i != n ==> addrs[i] in r.heap
    ensures forall i :: 0 <= i < |addrs| && i != n ==> r.heap[addrs[i]].item == f.heap[addrs[i]].item
  {
    forall i | 0 <= i < |addrs| && i != n
      ensures addrs[i] in r.heap && r.heap[addrs[i]].item == f.heap[addrs[i]].item
    {
      assert addrs[i] != addrs[n] by {
        if i < n { assert addrs[i] < addrs[n]; } else { assert addrs[n] < addrs[i]; }
      }
    }
  }

  lemma PopNthEnds<T>(f: List<T>, addrs: seq<nat>, n: nat, r: List<T>)
    requires Allocated(f, addrs) && Ends(f, addrs) && n < |addrs| && Unlinked(f, addrs, n, r)
    requires f.heap[addrs[0]].next == (if |addrs| > 1 then Ref(addrs[1]) else Null)
    ensures Ends(r, addrs[..n] + addrs[n + 1..])
  {
    var a' := addrs[..n] + addrs[n + 1..];
    if n == 0 {
      assert a' == addrs[1..];
      if |addrs| > 1 {
        assert f.heap[addrs[0]].next == Ref(addrs[1]);
      }
    } else {
      assert a'[0] == addrs[0];
      if n == |addrs| - 1 {
        assert a'[|a'| - 1] == addrs[n - 1];
      } else {
        assert a'[|a'| - 1] == addrs[|addrs| - 1];
      }
    }
  }

  lemma PopNthNoGarbage<T>(f: List<T>, addrs: seq<nat>, n: nat, r: List<T>)
    requires Allocated(f, addrs) && NoGarbage(f, addrs) && n < |addrs| && Unlinked(f, addrs, n, r)
    ensures NoGarbage(r, addrs[..n] + addrs[n + 1..])
  {
    var a' := addrs[..n] + addrs[n + 1..];
    forall a | a in r.heap
      ensures a in a'
    {
      assert a in f.heap && a != addrs[n];
      var k :| 0 <= k < |addrs| && addrs[k] == a;
      if k < n { assert a'[k] == a; } else { assert a'[k - 1] == a; }
    }
  }

  lemma PopNthChained<T>(f: List<T>, addrs: seq<nat>, n: nat, r: List<T>)
    requires Repr(f, addrs) && n < |addrs| && Unlinked(f, addrs, n, r)
    ensures Allocated(r, addrs[..n] + addrs[n + 1..])
    ensures Chained(r, addrs[..n] + addrs[n + 1..])
  {
    var a' := addrs[..n] + addrs[n + 1..];
    PopNthShape(f, addrs, n, r);
    forall i | 0 <= i < |a'| - 1
      ensures r.heap[a'[i]].next == Ref(a'[i + 1])
    {
      if i < n - 1 {
        assert a'[i] == addrs[i] && a'[i + 1] == addrs[i + 1];
        assert addrs[i] < addrs[n - 1];
      } else if i == n - 1 {
        assert a'[i] == addrs[n - 1] && a'[i + 1] == addrs[n + 1];
      } else {
        assert a'[i] == addrs[i + 1] && a'[i + 1] == addrs[i + 2];
        assert n == 0 || addrs[n - 1] < addrs[i + 1];
      }
    }
    if |a'| > 0 {
      var last := a'[|a'| - 1];
      if n == |addrs| - 1 {
        assert last == addrs[n - 1];
      } else {
        assert last == addrs[|addrs| - 1];
        assert n == 0 || addrs[n - 1] < last;
      }
    }
  }

  /**
    `freeFIFO`: pop until empty. Every item is released, oldest first, and
    no node is left in the heap.
   */
  method Free<T>(f: List<T>, ghost addrs: seq<nat>) returns (released: seq<T>, r: List<T>)
    requires Repr(f, addrs)
    ensures released == Items(f, addrs)
    ensures r.heap == map[] && r.front == Null && r.rear == Null
  {
    released := [];
    r := f;
    ghost var rest := addrs;
    ghost var all := Items(f, addrs);
    ghost var remaining := all;
    while !IsEmpty(r)
      invariant Repr(r, rest)
      invariant remaining == Items(r, rest)
      invariant released + remaining == all
      decreases |rest|
    {
      PopStep(r, rest);
      var popped := Pop(r);
      ghost var items := Items(popped.1, rest[1..]);
      assert remaining == [popped.0.value] + items;
      assert released + remaining == (released + [popped.0.value]) + items;
      released := released + [popped.0.value];
      remaining := items;
      r := popped.1;
      rest := rest[1..];
    }
    EmptyReprHasNoNodes(r, rest);
    assert remaining == [];
  }

  lemma PopStep<T>(f: List<T>, addrs: seq<nat>)
    requires Repr(f, addrs) && !IsEmpty(f)
    ensures Linked(f) && addrs != [] && Pop(f).0.Some?
    ensures Repr(Pop(f).1, addrs[1..])
    ensures Items(f, addrs) == [Pop(f).0.value] + Items(Pop(f).1, addrs[1..])
  {
    PopRefines(f, addrs);
  }

  lemma EmptyReprHasNoNodes<T>(f: List<T>, addrs: seq<nat>)
    requires Repr(f, addrs) && IsEmpty(f)
    ensures addrs == [] && f.heap == map[] && f.rear == Null
  {
    assert f.heap.Keys == {};
  }
}

=== FILE: options.dfy ===
/** An optional value: a C pointer that may be NULL, a reading that may be "none". */
module Options {
  datatype Option<+T> = None | Some(value: T)
}

=== FILE: phase_props.dfy ===
/**
  Properties of the phase machine over several batches: the order in which
  Recording writes the backlog, the Postrecord deadline, the Prerecord
  bootstrap, and how the retention window first grows and then slides.
 */
module PhaseProperties {
  import opened Options
  import opened Chunks
  import opened Storage
  import opened Writer
  import opened Sink
  import Fifo

  /** With an accepting writer, one batch lands in the file whole. */
  lemma WriteBatchOk(s: State, b: Batch)
    requires AllOk(s.answers) && |s.answers| >= 1
    ensures var r := WriteBatch(s, b);
      && r.1 == Ok && r.0.file == Write(s.file, Bytes(b))
      && AllOk(r.0.answers) && |r.0.answers| + 1 >= |s.answers|
  {
    if b != [] {
      RetryFirstOk(Bytes(b), s.file, s.pos, s.answers);
    }
  }

  /** Draining with an accepting writer writes every retained batch, oldest first. */
  lemma {:induction false} DrainWritesOldestFirst(s: State)
    requires s.fifo.Some?
    requires AllOk(s.answers) && |s.answers| >= |s.fifo.value|
    ensures var r := Drain(s);
      && r.1 == Ok && r.0.fifo == Some([])
      && r.0.file == Write(s.file, AllBytes(s.fifo.value))
      && AllOk(r.0.answers) && |r.0.answers| + |s.fifo.value| >= |s.answers|
    decreases |s.fifo.value|
  {
    var q := s.fifo.value;
    if q != [] {
      var s' := s.(fifo := Some(q[1..]));
      WriteBatchOk(s', q[0]);
      var t := WriteBatch(s', q[0]).0;
      assert Fifo.Pop(q) == (Some(q[0]), q[1..]);
      assert Drain(s) == Drain(t);
      DrainWritesOldestFirst(t);
      WriteWrite(s.file, Bytes(q[0]), AllBytes(q[1..]));
    }
  }

  /**
    Switching to Recording: with an accepting writer the file receives the
    whole retained backlog, oldest batch first, and then the incoming
    batch; the FIFO is left empty.
   */
  lemma RecordingWritesBacklogFirst(s: State, b: Batch, now: Clock)
    requires s.cfg.buffering == Recording && s.fifo.Some?
    requires AllOk(s.answers) && |s.answers| >= |s.fifo.value| + 1
    ensures var r := PhaseStep(s, b, now);
      && r.1 == Ok && r.0.fifo == Some([])
      && r.0.file == Write(s.file, AllBytes(s.fifo.value) + Bytes(b))
  {
    DrainWritesOldestFirst(s);
    var t := Drain(s).0;
    WriteBatchOk(t, b);
    WriteWrite(s.file, AllBytes(s.fifo.value), Bytes(b));
  }

  /**
    The state a drain of `q` that started on file `f` left when it stopped
    at batch `j`: the batches before `j` were written whole and `k` bytes
    of batch `j`; batch `j` has left the FIFO and the later ones remain.
   */
  predicate StoppedAt(q: seq<Batch>, f: File, r: State, j: int, k: int)
  {
    && 0 <= j < |q| && 0 <= k <= |Bytes(q[j])|
    && r.fifo == Some(q[j + 1..])
    && r.file == Write(f, AllBytes(q[..j]) + Bytes(q[j])[..k])
  }

  /**
    A drain that does not end OK stopped at some retained batch: the
    failed batch is lost and the ones behind it stay retained.
   */
  lemma {:induction false} DrainStopsAtFailure(s: State)
    requires s.fifo.Some? && Drain(s).1 != Ok
    ensures exists j, k :: StoppedAt(s.fifo.value, s.file, Drain(s).0, j, k)
    decreases |s.fifo.value|
  {
    var q := s.fifo.value;
    assert q != [];
    var s' := s.(fifo := Some(q[1..]));
    assert Fifo.Pop(q) == (Some(q[0]), q[1..]);
    var (t, f) := WriteBatch(s', q[0]);
    if f != Ok {
      var o := WriteAll(Bytes(q[0]), s.file, s.pos, s.answers);
      assert Drain(s).0 == t && t.file == o.file;
      assert AllBytes(q[..0]) + Bytes(q[0])[..o.skip] == Bytes(q[0])[..o.skip];
      assert StoppedAt(q, s.file, Drain(s).0, 0, o.skip);
    } else {
      assert Drain(s) == Drain(t);
      DrainStopsAtFailure(t);
      DrainStopsLater(q, s.file, t, Drain(t).0);
    }
  }

  /** A stop inside the rest of the FIFO, after the head was written whole. */
  lemma DrainStopsLater(q: seq<Batch>, f: File, t: State, r: State)
    requires q != [] && t.fifo == Some(q[1..]) && t.file == Write(f, Bytes(q[0]))
    requires exists j, k :: StoppedAt(q[1..], t.file, r, j, k)
    ensures exists j, k :: StoppedAt(q, f, r, j, k)
  {
    var p := q[1..];
    var j, k :| StoppedAt(p, t.file, r, j, k);
    var tail := Bytes(p[j])[..k];
    WriteWrite(f, Bytes(q[0]), AllBytes(p[..j]) + tail);
    AllBytesTake(q, j);
    assert Bytes(q[0]) + (AllBytes(p[..j]) + tail) == AllBytes(q[..j + 1]) + tail;
    assert r.file == Write(f, AllBytes(q[..j + 1]) + Bytes(q[j + 1])[..k]);
    assert q[j + 2..] == p[j + 1..];
    assert StoppedAt(q, f, r, j + 1, k);
  }

  lemma AllBytesTake(q: seq<Batch>, j: nat)
    requires j < |q|
    ensures AllBytes(q[..j + 1]) == Bytes(q[0]) + AllBytes(q[1..][..j])
  {
    assert q[..j + 1][1..] == q[1..][..j];
  }

  /**
    Recording, when the drain does not end OK: the call returns what the
    drain left and its flow, so the incoming batch is not written, and the
    FIFO holds exactly the batches behind the one that failed.
   */
  lemma RecordingFailureStops(s: State, b: Batch, now: Clock)
    requires s.cfg.buffering == Recording && s.fifo.Some? && Drain(s).1 != Ok
    ensures PhaseStep(s, b, now) == Drain(s)
    ensures exists j, k :: StoppedAt(s.fifo.value, s.file, PhaseStep(s, b, now).0, j, k)
  {
    DrainStopsAtFailure(s);
  }

  /**
    The case of `RecordingFailureStops` where the writer's first answer
    fails on the oldest batch. The call ends with that flow: the batch
    being written has already left the FIFO and is not put back, the later
    batches stay retained, and the incoming batch is not written.
   */
  lemma RecordingFailureLosesHead(s: State, b: Batch, now: Clock)
    requires s.cfg.buffering == Recording && s.fifo.Some? && s.fifo.value != []
    requires s.fifo.value[0] != []
    requires s.answers != [] && s.answers[0].flow != Ok && !Retries(s.answers[0])
    ensures var r := PhaseStep(s, b, now);
      && r.1 == Final(s.answers[0]) && r.1 != Ok
      && r.0.fifo == Some(s.fifo.value[1..])
      && r.0.answers == s.answers[1..]
      && exists k :: 0 <= k <= |Bytes(s.fifo.value[0])| && r.0.file == Write(s.file, Bytes(s.fifo.value[0])[..k])
  {
    var q := s.fifo.value;
    var o := WriteAll(Bytes(q[0]), s.file, s.pos, s.answers);
    assert o.answers == s.answers[1..] && o.flow == Final(s.answers[0]);
  }

  /**
    Postrecord measures its deadline from the clock reading taken when its
    first batch arrives: both batches are written, and each answer is EOS
    exactly when the unsigned time elapsed since that reading, at the
    reading taken after the write, is at least `post-record` seconds.
   */
  lemma PostrecordDeadlineFromFirstBatch(s: State, b1: Batch, now1: Clock, b2: Batch, now2: Clock)
    requires s.cfg.buffering == Postrecord && s.cfg.postRecord > 0 && !s.phase.timeCaptured
    requires AllOk(s.answers) && |s.answers| >= 2
    ensures var (t, f1) := PhaseStep(s, b1, now1);
      var (u, f2) := PhaseStep(t, b2, now2);
      && t.phase.start == now1.first && u.phase.start == now1.first
      && (f1 == Eos <==> Elapsed(now1.second, now1.first) >= s.cfg.postRecord * Second)
      && (f2 == Eos <==> Elapsed(now2.second, now1.first) >= s.cfg.postRecord * Second)
      && (f1 == Eos || f1 == Ok) && (f2 == Eos || f2 == Ok)
      && u.file == Write(s.file, Bytes(b1) + Bytes(b2))
  {
    var ph := s.phase.(start := now1.first, timeCaptured := true);
    WriteBatchOk(s.(phase := ph), b1);
    var t := PhaseStep(s, b1, now1).0;
    assert t.phase.timeCaptured && t.phase.start == now1.first;
    WriteBatchOk(t, b2);
    WriteWrite(s.file, Bytes(b1), Bytes(b2));
  }

  /**
    Only a Postrecord pass that runs and stays within its deadline clears
    the bootstrap state. A pass with `post-record` not positive, or one
    that reaches the deadline, leaves the bootstrap flag and counter, the
    window clock, the eviction flag and the FIFO untouched, so a return
    to Prerecord resumes retention where it stopped.
   */
  lemma PostrecordKeepsWindow(s: State, b: Batch, now: Clock)
    requires s.cfg.buffering == Postrecord
    requires s.cfg.postRecord <= 0 ||
             Reached(now.second, if s.phase.timeCaptured then s.phase.start else now.first, s.cfg.postRecord)
    ensures var t := PhaseStep(s, b, now).0;
      && t.phase.firstWritten == s.phase.firstWritten && t.phase.num == s.phase.num
      && t.phase.timeCaptured2 == s.phase.timeCaptured2 && t.phase.start2 == s.phase.start2
      && t.phase.cal == s.phase.cal && t.fifo == s.fifo
  {
  }

  /** Once the deadline has passed, the answer is EOS whatever the write returned. */
  lemma PostrecordEosMasksWriteError(s: State, b: Batch, now: Clock)
    requires s.cfg.buffering == Postrecord && s.cfg.postRecord > 0 && s.phase.timeCaptured
    requires Reached(now.second, s.phase.start, s.cfg.postRecord)
    ensures PhaseStep(s, b, now).1 == Eos
  {
  }

  /**
    A clock reading behind the Postrecord start wraps around: the unsigned
    elapsed time is then close to 2^64 nanoseconds, so the deadline counts
    as reached and the answer is EOS.
   */
  lemma PostrecordClockBehindStartEnds(s: State, b: Batch, now: Clock)
    requires s.cfg.buffering == Postrecord && s.cfg.postRecord > 0 && s.phase.timeCaptured
    requires now.second < s.phase.start < ClockRange
    requires s.phase.start - now.second <= ClockRange - s.cfg.postRecord * Second
    ensures PhaseStep(s, b, now).1 == Eos
  {
  }

  /**
    The Prerecord bootstrap: the first two batches go straight to the file
    without timestamps; the second ends the bootstrap and disarms both
    timers, and the FIFO is not touched.
   */
  lemma BootstrapWritesFirstTwo(s: State, b1: Batch, now1: Clock, b2: Batch, now2: Clock)
    requires s.cfg.buffering != Recording && s.cfg.buffering != Postrecord
    requires !s.phase.firstWritten && s.phase.num == 0
    requires AllOk(s.answers) && |s.answers| >= 2
    ensures var (t, f1) := PhaseStep(s, b1, now1);
      var (u, f2) := PhaseStep(t, b2, now2);
      && f1 == Ok && !t.phase.firstWritten && t.phase.num == 1
      && f2 == Ok && u.phase.firstWritten && !u.phase.timeCaptured && !u.phase.timeCaptured2
      && u.fifo == s.fifo
      && u.file == Write(s.file, Bytes(b1) + Bytes(b2))
  {
    ClearTimestampsKeepsBytes(b1);
    ClearTimestampsKeepsBytes(b2);
    WriteBatchOk(s, ClearTimestamps(b1));
    var t := PhaseStep(s, b1, now1).0;
    WriteBatchOk(t, ClearTimestamps(b2));
    WriteWrite(s.file, Bytes(b1), Bytes(b2));
  }

  /**
    After the bootstrap each batch is retained instead of written: one
    oldest batch is evicted first when the armed flag is set, the new
    batch joins the tail without timestamps, the flag is re-armed exactly
    when more than `pre-record` seconds have passed since the window clock
    started, and that clock, once started, never moves.
   */
  lemma PrerecordRetains(s: State, b: Batch, now: Clock)
    requires s.cfg.buffering != Recording && s.cfg.buffering != Postrecord
    requires s.phase.firstWritten
    ensures var (t, f) := PhaseStep(s, b, now);
      var q := if s.fifo.Some? then s.fifo.value else [];
      var start2 := if s.phase.timeCaptured2 then s.phase.start2 else now.first;
      && f == Ok
      && t.file == s.file && t.pos == s.pos && t.answers == s.answers
      && t.fifo == Some((if s.phase.cal && q != [] then q[1..] else q) + [ClearTimestamps(b)])
      && t.phase.timeCaptured2 && t.phase.start2 == start2
      && t.phase.cal == Exceeded(now.second, start2, s.cfg.preRecord)
  {
  }

  /**
    A clock reading behind the window clock's start wraps around, so the
    window counts as expired and the next batch will evict the oldest.
   */
  lemma PrerecordClockBehindStartArms(s: State, b: Batch, now: Clock)
    requires s.cfg.buffering != Recording && s.cfg.buffering != Postrecord
    requires s.phase.firstWritten && s.phase.timeCaptured2
    requires now.second < s.phase.start2 < ClockRange
    requires s.phase.start2 - now.second < ClockRange - s.cfg.preRecord * Second
    ensures PhaseStep(s, b, now).0.phase.cal
  {
  }

  /** Timestamp-free copies of a run of batches. */
  function ClearAll(bs: seq<Batch>): (r: seq<Batch>)
    ensures |r| == |bs|
    ensures forall i :: 0 <= i < |bs| ==> r[i] == ClearTimestamps(bs[i])
  {
    seq(|bs|, i requires 0 <= i < |bs| => ClearTimestamps(bs[i]))
  }

  /** Batches fed to the phase machine one by one, batch `i` at clock reading `times[i]`. */
  function Run(s: State, bs: seq<Batch>, times: seq<Clock>): State
    requires |bs| == |times|
    decreases |bs|
  {
    if bs == [] then s else Run(PhaseStep(s, bs[0], times[0]).0, bs[1..], times[1..])
  }

  /** The Prerecord steady state: bootstrap done and the window clock running. */
  predicate Retaining(s: State)
  {
    && s.cfg.buffering != Recording && s.cfg.buffering != Postrecord
    && s.phase.firstWritten && s.phase.timeCaptured2 && s.fifo.Some?
  }

  /**
    Until `pre-record` seconds have passed since the window clock started,
    nothing is evicted: the FIFO grows by every batch, in arrival order.
   */
  lemma {:induction false} WindowGrows(s: State, bs: seq<Batch>, times: seq<Clock>)
    requires Retaining(s) && !s.phase.cal && |bs| == |times|
    requires forall i :: 0 <= i < |times| ==> !Exceeded(times[i].second, s.phase.start2, s.cfg.preRecord)
    ensures var r := Run(s, bs, times);
      && Retaining(r) && !r.phase.cal && r.phase.start2 == s.phase.start2
      && r.fifo == Some(s.fifo.value + ClearAll(bs))
      && r.file == s.file
    decreases |bs|, 1
  {
    if bs != [] {
      var t := PhaseStep(s, bs[0], times[0]).0;
      PrerecordRetains(s, bs[0], times[0]);
      assert Run(s, bs, times) == Run(t, bs[1..], times[1..]);
      WindowGrowsTail(s, t, bs, times);
    } else {
      assert s.fifo.value + ClearAll(bs) == s.fifo.value;
    }
  }

  /** The rest of a growing run, after the first batch has been retained as `t`. */
  lemma {:induction false} WindowGrowsTail(s: State, t: State, bs: seq<Batch>, times: seq<Clock>)
    requires Retaining(s) && !s.phase.cal && |bs| == |times| && bs != []
    requires forall i :: 0 <= i < |times| ==> !Exceeded(times[i].second, s.phase.start2, s.cfg.preRecord)
    requires Retaining(t) && !t.phase.cal && t.cfg == s.cfg && t.phase.start2 == s.phase.start2
    requires t.fifo == Some(s.fifo.value + [ClearTimestamps(bs[0])]) && t.file == s.file
    ensures var r := Run(t, bs[1..], times[1..]);
      && Retaining(r) && !r.phase.cal && r.phase.start2 == s.phase.start2
      && r.fifo == Some(s.fifo.value + ClearAll(bs))
      && r.file == s.file
    decreases |bs|, 0
  {
    ClearAllCons(s.fifo.value, bs);
    assert forall i :: 0 <= i < |times[1..]| ==> times[1..][i] == times[i + 1];
    WindowGrows(t, bs[1..], times[1..]);
  }

  /**
    Once armed, with the clock past the deadline, every batch evicts the
    oldest one: the FIFO keeps its length and always holds the latest
    batches.
   */
  lemma {:induction false} WindowSlides(s: State, bs: seq<Batch>, times: seq<Clock>)
    requires Retaining(s) && s.phase.cal && s.fifo.value != [] && |bs| == |times|
    requires forall i :: 0 <= i < |times| ==> Exceeded(times[i].second, s.phase.start2, s.cfg.preRecord)
    ensures var r := Run(s, bs, times);
      && Retaining(r) && r.phase.cal
      && |r.fifo.value| == |s.fifo.value|
      && r.fifo == Some((s.fifo.value + ClearAll(bs))[|bs|..])
      && r.file == s.file
    decreases |bs|, 1
  {
    if bs != [] {
      var t := PhaseStep(s, bs[0], times[0]).0;
      PrerecordRetains(s, bs[0], times[0]);
      assert Run(s, bs, times) == Run(t, bs[1..], times[1..]);
      WindowSlidesTail(s, t, bs, times);
    } else {
      assert s.fifo.value + ClearAll(bs) == s.fifo.value;
    }
  }

  /** The rest of a sliding run, after the first batch has evicted the oldest as `t`. */
  lemma {:induction false} WindowSlidesTail(s: State, t: State, bs: seq<Batch>, times: seq<Clock>)
    requires Retaining(s) && s.phase.cal && s.fifo.value != [] && |bs| == |times| && bs != []
    requires forall i :: 0 <= i < |times| ==> Exceeded(times[i].second, s.phase.start2, s.cfg.preRecord)
    requires Retaining(t) && t.phase.cal && t.cfg == s.cfg && t.phase.start2 == s.phase.start2
    requires t.fifo == Some(s.fifo.value[1..] + [ClearTimestamps(bs[0])]) && t.file == s.file
    ensures var r := Run(t, bs[1..], times[1..]);
      && Retaining(r) && r.phase.cal
      && |r.fifo.value| == |s.fifo.value|
      && r.fifo == Some((s.fifo.value + ClearAll(bs))[|bs|..])
      && r.file == s.file
    decreases |bs|, 0
  {
    assert forall i :: 0 <= i < |times[1..]| ==> times[1..][i] == times[i + 1];
    WindowSlides(t, bs[1..], times[1..]);
    ClearAllCons(s.fifo.value, bs);
    SlideOne(s.fifo.value, ClearTimestamps(bs[0]), ClearAll(bs[1..]));
  }

  /** Dropping the head and then `|rest|` items is dropping `|rest| + 1` items. */
  lemma SlideOne<T>(q: seq<T>, x: T, rest: seq<T>)
    requires q != []
    ensures (q + ([x] + rest))[|rest| + 1..] == ((q[1..] + [x]) + rest)[|rest|..]
  {
    var a := q + ([x] + rest);
    assert (q[1..] + [x]) + rest == a[1..];
    assert a[1..][|rest|..] == a[|rest| + 1..];
  }

  /** Peeling the first batch off a run, also behind a prefix `q`. */
  lemma ClearAllCons(q: seq<Batch>, bs: seq<Batch>)
    requires bs != []
    ensures ClearAll(bs) == [ClearTimestamps(bs[0])] + ClearAll(bs[1..])
    ensures q + ClearAll(bs) == (q + [ClearTimestamps(bs[0])]) + ClearAll(bs[1..])
  {
    assert ClearAll(bs) == [ClearTimestamps(bs[0])] + ClearAll(bs[1..]);
  }
}

=== FILE: sink.dfy ===
/**
  The prerecord sink's routing core: the coalescer (`current_pos`, the
  pending byte buffer or buffer list, `current_buffer_size`), the phase
  machine of `gst_prerecord_sink_render_list_internal`, and the entry
  points that drive them (`render`, `render_list`, the SEGMENT, FLUSH_STOP
  and EOS events, the POSITION query, `do_seek`, opening the file).

  Every operation is a pure function from the sink state to a new state
  and a flow. The state also carries the two outside parties the code
  talks to: the output file and the script of writer answers.
 */
module Sink {
  import opened Options
  import opened Chunks
  import opened Storage
  import opened Writer
  import Fifo

  /** Nanoseconds per second (`GST_SECOND`). */
  const Second: nat := 1000000000

  /** `DEFAULT_BUFFER_SIZE`, used when `buffer-size` is 0 at open time. */
  const DefaultBufferSize: nat := 64 * 1024

  /** `buffering` values: `_IOFBF`, `_IOLBF` and the prerecord default. */
  const Recording: int := 0
  const Postrecord: int := 1
  const Prerecord: int := -1

  /** `buffer-mode`; LINE is given a buffer list, like DEFAULT. */
  datatype BufferMode = ModeDefault | ModeFull | ModeLine | ModeUnbuffered

  datatype Config = Config(
    buffering: int,
    preRecord: int,
    postRecord: int,
    bufferMode: BufferMode,
    bufferSize: nat)

  /**
    What the coalescer holds back. `NoStore`: neither `buffer` nor
    `buffer_list` exists (unbuffered). `Memory`: the byte array of
    `allocated_buffer_size` bytes, of which `bytes` are the live prefix.
    `Listed`: the pending buffer list.
   */
  datatype Pending =
    | NoStore
    | Memory(capacity: nat, bytes: seq<byte>)
    | Listed(chunks: seq<Chunk>)

  /**
    The function-local statics of the phase machine: `first_buffers_written`,
    `num`, `cal`, `timecaptured`, `timecaptured2`, `start_time`, `start_time2`.
   */
  datatype Phase = Phase(
    firstWritten: bool,
    num: nat,
    cal: bool,
    timeCaptured: bool,
    timeCaptured2: bool,
    start: nat,
    start2: nat)

  const FreshPhase := Phase(false, 0, false, false, false, 0, 0)

  datatype State = State(
    cfg: Config,
    file: File,
    answers: seq<Attempt>,
    seekable: bool,
    pos: nat,
    pending: Pending,
    pendingSize: nat,
    fifo: Option<seq<Batch>>,
    phase: Phase)

  /** `GstClockTime` is a 64-bit unsigned count of nanoseconds. */
  const ClockRange: nat := 0x1_0000_0000_0000_0000

  /**
    The pipeline clock as one call into the phase machine sees it. The
    Postrecord and Prerecord branches read the clock up to twice: `first`
    is the reading taken when a deadline clock is started, `second` the
    reading taken afterwards to measure the elapsed time. Nothing relates
    the two, so a clock that moves between or across calls is covered.
   */
  datatype Clock = Clock(first: nat, second: nat)

  /**
    Inputs of one call besides the writer script: the clock readings and
    the results of `fseeko`, `ftruncate` and `fsync`. Each phase-machine
    call reads the clock afresh: `next` always serves `render_list`'s own
    phase step, and `now` serves any phase step a flush makes.
   */
  datatype Env = Env(now: Clock, next: Clock, seekOk: bool, truncateOk: bool, fsyncOk: bool)

  /** Query formats the POSITION query distinguishes. */
  datatype Format = FormatDefault | FormatBytes | FormatOther

  /**
    The coalescer invariant: `current_pos` is the file's cursor, and
    `current_buffer_size` counts exactly the bytes held back, which in full
    mode never exceed the allocated buffer.
   */
  predicate Inv(s: State)
  {
    && s.pos == s.file.cursor
    && match s.pending
       case NoStore => s.pendingSize == 0
       case Memory(cap, bytes) => |bytes| == s.pendingSize <= cap
       case Listed(chunks) => s.pendingSize == |Bytes(chunks)|
  }

  /** `current_pos` and the file cursor moved by the same amount. */
  predicate Tracks(s: State, t: State)
  {
    t.pos + s.file.cursor == t.file.cursor + s.pos
  }

  /** Only the file, the position and the writer script changed. */
  predicate WriteFrame(s: State, t: State)
  {
    && t.cfg == s.cfg && t.seekable == s.seekable
    && t.pending == s.pending && t.pendingSize == s.pendingSize
    && t.fifo == s.fifo && t.phase == s.phase
    && Tracks(s, t)
  }

  /** Whether the pending store is the same kind, with the same capacity. */
  predicate SameStore(p: Pending, q: Pending)
  {
    match p
    case NoStore => q.NoStore?
    case Memory(cap, _) => q.Memory? && q.capacity == cap
    case Listed(_) => q.Listed?
  }

  // ---------------------------------------------------------------------
  // Writing

  /** One run of the retry loop over `data` at `current_pos`. */
  function Emit(s: State, data: seq<byte>): (r: (State, Flow))
    ensures WriteFrame(s, r.0)
    ensures r.1 == Ok ==> r.0.file == Write(s.file, data) && r.0.pos == s.pos + |data|
  {
    var o := WriteAll(data, s.file, s.pos, s.answers);
    (s.(file := o.file, pos := o.pos, answers := o.answers), o.flow)
  }

  /** `gst_file_sink_render_list_internal`: an empty list is OK and writes nothing. */
  function WriteBatch(s: State, b: Batch): (r: (State, Flow))
    ensures WriteFrame(s, r.0)
    ensures b == [] ==> r == (s, Ok)
    ensures r.1 == Ok ==> r.0.file == Write(s.file, Bytes(b)) && r.0.pos == s.pos + |Bytes(b)|
  {
    if b == [] then (s, Ok) else Emit(s, Bytes(b))
  }

  /** `render_buffer`: one chunk through the retry loop. */
  function RenderBuffer(s: State, c: Chunk): (r: (State, Flow))
    ensures WriteFrame(s, r.0)
    ensures r.1 == Ok ==> r.0.file == Write(s.file, c.data) && r.0.pos == s.pos + |c.data|
  {
    Emit(s, c.data)
  }

  // ---------------------------------------------------------------------
  // Phase machine

  /**
    Recording's drain loop: pop the oldest batch and write it, until the
    FIFO is empty or a write does not return OK; a failed batch is not put
    back.
   */
  function Drain(s: State): (r: (State, Flow))
    requires s.fifo.Some?
    ensures r.0.fifo.Some?
    ensures r.1 == Ok ==> r.0.fifo.value == []
    ensures |r.0.fifo.value| <= |s.fifo.value|
    ensures r.0.fifo.value == s.fifo.value[|s.fifo.value| - |r.0.fifo.value|..]
    ensures r.0.cfg == s.cfg && r.0.seekable == s.seekable && r.0.phase == s.phase
    ensures r.0.pending == s.pending && r.0.pendingSize == s.pendingSize
    ensures Tracks(s, r.0)
    decreases |s.fifo.value|
  {
    var q := s.fifo.value;
    if Fifo.IsEmpty(q) then (s, Ok)
    else
      var (head, rest) := Fifo.Pop(q);
      var (t, f) := WriteBatch(s.(fifo := Some(rest)), head.value);
      if f != Ok then (t, f)
      else
        var r := Drain(t);
        assert rest == q[1..];
        r
  }

  /**
    `reading - start` as `GstClockTime` computes it: unsigned 64-bit
    subtraction, so a reading earlier than the start wraps to a huge
    elapsed time.
   */
  function Elapsed(reading: nat, start: nat): (d: nat)
    ensures d < ClockRange
    ensures reading < ClockRange && start <= reading ==> d == reading - start
    ensures reading < ClockRange && start < ClockRange && reading < start ==> d == ClockRange + reading - start
  {
    (reading - start) % ClockRange
  }

  /** The integer form of `elapsed_seconds >= limit` for a clock read at `reading`. */
  predicate Reached(reading: nat, start: nat, limit: int)
  {
    Elapsed(reading, start) >= limit * Second
  }

  /** The integer form of `elapsed_seconds > limit`. */
  predicate Exceeded(reading: nat, start: nat, limit: int)
  {
    Elapsed(reading, start) > limit * Second
  }

  /** The Recording branch: drain the FIFO oldest first, then write the batch. */
  function RecordStep(s: State, b: Batch): (r: (State, Flow))
    ensures r.0.cfg == s.cfg && r.0.seekable == s.seekable && r.0.phase == s.phase
    ensures r.0.pending == s.pending && r.0.pendingSize == s.pendingSize
    ensures Tracks(s, r.0)
  {
    var (t, f) := if s.fifo.Some? then Drain(s) else (s, Ok);
    if f != Ok then (t, f) else WriteBatch(t, b)
  }

  /**
    The Postrecord branch. With `post-record` positive: capture the start
    time on the first batch only, write the batch, then answer EOS once the
    deadline has passed; otherwise clear the prerecord bootstrap counters
    and return the write's flow. With `post-record` not positive the batch
    is dropped.
   */
  function PostrecordStep(s: State, b: Batch, now: Clock): (r: (State, Flow))
    ensures r.0.cfg == s.cfg && r.0.seekable == s.seekable && r.0.fifo == s.fifo
    ensures r.0.pending == s.pending && r.0.pendingSize == s.pendingSize
    ensures Tracks(s, r.0)
    ensures s.cfg.postRecord > 0 ==>
              r.0.phase.timeCaptured &&
              r.0.phase.start == (if s.phase.timeCaptured then s.phase.start else now.first)
    ensures s.cfg.postRecord > 0 ==>
              (r.1 == Eos <==> (Reached(now.second, r.0.phase.start, s.cfg.postRecord) || WriteBatch(s, b).1 == Eos))
    ensures s.cfg.postRecord > 0 && !Reached(now.second, r.0.phase.start, s.cfg.postRecord) ==>
              !r.0.phase.firstWritten && r.0.phase.num == 0
    ensures s.cfg.postRecord <= 0 ==> r == (s, Ok)
  {
    if s.cfg.postRecord > 0 then
      var ph := if !s.phase.timeCaptured then s.phase.(start := now.first, timeCaptured := true) else s.phase;
      var (t, f) := WriteBatch(s.(phase := ph), b);
      if Reached(now.second, ph.start, s.cfg.postRecord) then (t, Eos)
      else (t.(phase := t.phase.(firstWritten := false, num := 0)), f)
    else (s, Ok)
  }

  /**
    The Prerecord branch. Until the bootstrap is done each batch is written
    directly with its timestamps cleared, and the second such batch ends
    the bootstrap. Afterwards the FIFO is created if needed, the eviction
    clock starts on the first batch, one oldest batch is evicted when the
    armed flag is set, the flag is re-armed exactly when more than
    `pre-record` seconds have passed since that clock started, and a
    timestamp-free copy of the batch joins the FIFO.
   */
  function PrerecordStep(s: State, b: Batch, now: Clock): (r: (State, Flow))
    ensures r.0.cfg == s.cfg && r.0.seekable == s.seekable
    ensures r.0.pending == s.pending && r.0.pendingSize == s.pendingSize
    ensures Tracks(s, r.0)
  {
    if !s.phase.firstWritten then
      var num := s.phase.num + 1;
      var (t, f) := WriteBatch(s, ClearTimestamps(b));
      var ph := if num > 1
                then s.phase.(num := num, firstWritten := true, timeCaptured := false, timeCaptured2 := false)
                else s.phase.(num := num);
      (t.(phase := ph), f)
    else
      var q := if s.fifo.Some? then s.fifo.value else Fifo.Initialize();
      var ph := if !s.phase.timeCaptured2 then s.phase.(start2 := now.first, timeCaptured2 := true) else s.phase;
      var q' := if ph.cal then Fifo.Pop(q).1 else q;
      var armed := Exceeded(now.second, ph.start2, s.cfg.preRecord);
      (s.(fifo := Some(Fifo.Push(q', ClearTimestamps(b))), phase := ph.(cal := armed)), Ok)
  }

  /** `gst_prerecord_sink_render_list_internal`: dispatch on `buffering`. */
  function PhaseStep(s: State, b: Batch, now: Clock): (r: (State, Flow))
    ensures r.0.cfg == s.cfg && r.0.seekable == s.seekable
    ensures r.0.pending == s.pending && r.0.pendingSize == s.pendingSize
    ensures Tracks(s, r.0)
  {
    if s.cfg.buffering == Recording then RecordStep(s, b)
    else if s.cfg.buffering == Postrecord then PostrecordStep(s, b, now)
    else PrerecordStep(s, b, now)
  }

  // ---------------------------------------------------------------------
  // Coalescer

  /**
    `gst_prerecord_sink_flush_buffer`. Full mode writes the live bytes
    through the retry loop; list mode hands the pending list to the phase
    machine (not to the plain writer) and then empties the list, keeping
    it. Either way nothing is pending afterwards.
   */
  function Flush(s: State, now: Clock): (r: (State, Flow))
    ensures r.0.pendingSize == 0
    ensures SameStore(s.pending, r.0.pending)
    ensures s.pendingSize != 0 && !s.pending.NoStore? ==> r.0.pending.Memory? || r.0.pending == Listed([])
    ensures s.pendingSize != 0 && s.pending.Memory? ==> r.0.pending.bytes == []
    ensures s.pendingSize == 0 ==> r == (s.(pendingSize := 0), Ok)
    ensures !s.pending.Listed? ==> r.0.fifo == s.fifo && r.0.phase == s.phase
    ensures r.0.cfg == s.cfg && r.0.seekable == s.seekable
    ensures Tracks(s, r.0)
  {
    match s.pending
    case Memory(cap, bytes) =>
      if s.pendingSize != 0 then
        var (t, f) := Emit(s, bytes);
        (t.(pending := Memory(cap, []), pendingSize := 0), f)
      else (s.(pendingSize := 0), Ok)
    case Listed(chunks) =>
      if s.pendingSize != 0 then
        var (t, f) := if |chunks| > 0 then PhaseStep(s, chunks, now) else (s, Ok);
        (t.(pending := Listed([]), pendingSize := 0), f)
      else (s.(pendingSize := 0), Ok)
    case NoStore =>
      (s.(pendingSize := 0), Ok)
  }

  /**
    Full mode, one buffer: flush first if it would not fit beside what is
    pending (a failed flush ends the call); a buffer larger than the whole
    buffer is written directly; otherwise it is copied in.
   */
  function QueueMemory(s: State, data: seq<byte>, now: Clock): (r: (State, Flow))
    requires s.pending.Memory?
    ensures r.0.cfg == s.cfg && r.0.seekable == s.seekable && r.0.pending.Memory?
    ensures r.0.pending.capacity == s.pending.capacity
    ensures r.0.fifo == s.fifo && r.0.phase == s.phase
    ensures Tracks(s, r.0)
    ensures s.pendingSize + |data| > s.pending.capacity ==> r == Flush(s, now) || r.0.pendingSize <= |data|
  {
    var cap := s.pending.capacity;
    var (t, f) := if s.pendingSize + |data| > cap then Flush(s, now) else (s, Ok);
    if f != Ok then (t, f)
    else if |data| > cap then Emit(t, data)
    else (t.(pending := Memory(cap, t.pending.bytes + data), pendingSize := t.pendingSize + |data|), Ok)
  }

  /** Full mode over a whole list: buffer by buffer while the flow stays OK. */
  function QueueMemoryAll(s: State, b: Batch, now: Clock): (r: (State, Flow))
    requires s.pending.Memory?
    ensures r.0.cfg == s.cfg && r.0.seekable == s.seekable && r.0.pending.Memory?
    ensures r.0.pending.capacity == s.pending.capacity
    ensures r.0.fifo == s.fifo && r.0.phase == s.phase
    ensures Tracks(s, r.0)
    decreases |b|
  {
    if b == [] then (s, Ok)
    else
      var (t, f) := QueueMemory(s, b[0].data, now);
      if f != Ok then (t, f) else QueueMemoryAll(t, b[1..], now)
  }

  /**
    List mode: append and count the bytes, then flush exactly when the
    pending count exceeds `buffer-size`.
   */
  function QueueList(s: State, b: Batch, now: Clock): (r: (State, Flow))
    requires s.pending.Listed?
    ensures r.0.cfg == s.cfg && r.0.seekable == s.seekable && r.0.pending.Listed?
    ensures Tracks(s, r.0)
  {
    var t := s.(pending := Listed(s.pending.chunks + b), pendingSize := s.pendingSize + |Bytes(b)|);
    if t.pendingSize > s.cfg.bufferSize then Flush(t, now) else (t, Ok)
  }

  /** After a SYNC_AFTER buffer and an OK flow, `fsync`; its failure is an error. */
  function SyncAfter(s: State, f: Flow, sync: bool, fsyncOk: bool): (r: (State, Flow))
    ensures r.0 == s
    ensures r.1 == Error || r.1 == f
    ensures r.1 != f <==> f == Ok && sync && !fsyncOk
  {
    if f == Ok && sync && !fsyncOk then (s, Error) else (s, f)
  }

  /**
    `gst_prerecord_sink_render`: one buffer. A buffer with memory that is
    SYNC_AFTER, or arrives while unbuffered, flushes what is pending and is
    written directly by `render_buffer` (not through the phase machine);
    otherwise it is queued in the active store. A buffer without memory
    is ignored.
   */
  function Render(s: State, c: Chunk, env: Env): (r: (State, Flow))
    ensures r.0.cfg == s.cfg && r.0.seekable == s.seekable
    ensures SameStore(s.pending, r.0.pending)
    ensures Tracks(s, r.0)
    ensures c.nMem == 0 ==> r.0 == s && (r.1 == Ok <==> !c.syncAfter || env.fsyncOk)
    ensures c.nMem == 0 ==> r.1 == Ok || r.1 == Error
  {
    var (t, f) :=
      if c.nMem > 0 && (c.syncAfter || s.pending.NoStore?) then
        var (u, g) := Flush(s, env.now);
        if g == Ok then RenderBuffer(u, c) else (u, g)
      else if c.nMem > 0 then
        if s.pending.Memory? then QueueMemory(s, c.data, env.now)
        else QueueList(s, [c], env.now)
      else (s, Ok);
    SyncAfter(t, f, c.syncAfter, env.fsyncOk)
  }

  /**
    `gst_prerecord_sink_render_list`. A list with a SYNC_AFTER buffer, or
    any list while unbuffered, flushes what is pending and then goes
    through the phase machine, which reads the clock again (`env.next`);
    otherwise it is queued in the active store.
    An empty list is OK and changes nothing.
   */
  function RenderList(s: State, b: Batch, env: Env): (r: (State, Flow))
    ensures r.0.cfg == s.cfg && r.0.seekable == s.seekable
    ensures SameStore(s.pending, r.0.pending)
    ensures Tracks(s, r.0)
    ensures b == [] ==> r == (s, Ok)
  {
    if b == [] then (s, Ok)
    else
      var sync := HasSyncAfter(b);
      var (t, f) :=
        if sync || s.pending.NoStore? then
          var (u, g) := Flush(s, env.now);
          if g == Ok then PhaseStep(u, b, env.next) else (u, g)
        else if s.pending.Memory? then QueueMemoryAll(s, b, env.now)
        else QueueList(s, b, env.now);
      SyncAfter(t, f, sync, env.fsyncOk)
  }

  // ---------------------------------------------------------------------
  // Seeking, events and queries

  /**
    `gst_prerecord_sink_do_seek`: flush first, give up if that fails or
    the seek fails, otherwise move the cursor and read it back into
    `current_pos`.
   */
  function DoSeek(s: State, offset: nat, env: Env): (r: (State, bool))
    ensures r.0.pendingSize == 0
    ensures r.0.cfg == s.cfg && r.0.seekable == s.seekable
    ensures SameStore(s.pending, r.0.pending)
    ensures !r.1 ==> Tracks(s, r.0)
    ensures r.1 ==> r.0.pos == offset && r.0.file.cursor == offset
    ensures r.1 <==> env.seekOk && Flush(s, env.now).1 == Ok
  {
    var (t, f) := Flush(s, env.now);
    if f != Ok || !env.seekOk then (t, false)
    else
      var file := Seek(t.file, offset);
      (t.(file := file, pos := file.cursor), true)
  }

  /**
    The SEGMENT event: a BYTES segment that starts anywhere but the logical
    position (`current_pos + current_buffer_size`) triggers a seek there;
    a failed seek fails the event.
   */
  function Segment(s: State, format: Format, start: nat, env: Env): (r: (State, bool))
    ensures format != FormatBytes ==> r == (s, true)
    ensures format == FormatBytes && s.pos + s.pendingSize == start ==> r == (s, true)
    ensures format == FormatBytes && s.pos + s.pendingSize != start ==> r == DoSeek(s, start, env)
  {
    if format == FormatBytes && s.pos + s.pendingSize != start then DoSeek(s, start, env)
    else (s, true)
  }

  /**
    The FLUSH_STOP event: when the position is not 0 and the file is
    seekable, seek to 0 (its result is ignored) and truncate to zero
    length, failing the event when truncation fails; then replace the
    pending list with an empty one and zero the pending count.
   */
  function FlushStop(s: State, env: Env): (r: (State, bool))
    ensures r.0.cfg == s.cfg && r.0.seekable == s.seekable
    ensures SameStore(s.pending, r.0.pending)
    ensures !r.1 <==> s.pos != 0 && s.seekable && !env.truncateOk
    ensures r.1 ==> r.0.pendingSize == 0
    ensures r.1 && r.0.pending.Listed? ==> r.0.pending.chunks == []
    ensures r.1 && r.0.pending.Memory? ==> r.0.pending.bytes == []
    ensures s.pos != 0 && s.seekable && env.truncateOk ==> r.0.file.content == []
    ensures !(s.pos != 0 && s.seekable) ==> r.0.file == s.file && r.0.pos == s.pos && r.0.answers == s.answers
  {
    var (t, ok) :=
      if s.pos != 0 && s.seekable then
        var (u, _) := DoSeek(s, 0, env);
        if env.truncateOk then (u.(file := TruncateToZero(u.file)), true) else (u, false)
      else (s, true);
    if !ok then (t, false)
    else
      var p := match t.pending
               case Listed(_) => Listed([])
               case Memory(cap, _) => Memory(cap, [])
               case NoStore => NoStore;
      (t.(pending := p, pendingSize := 0), true)
  }

  /** The EOS event: flush; a failed flush fails the event. */
  function EndOfStream(s: State, env: Env): (r: (State, bool))
    ensures r.0.pendingSize == 0
    ensures r.1 <==> Flush(s, env.now).1 == Ok
  {
    var (t, f) := Flush(s, env.now);
    (t, f == Ok)
  }

  /** The POSITION query in DEFAULT or BYTES format; other formats are refused. */
  function QueryPosition(s: State, format: Format): Option<nat>
  {
    if format == FormatDefault || format == FormatBytes then Some(s.pos + s.pendingSize) else None
  }

  /**
    `gst_prerecord_sink_open_prerecord` for a file opened for truncating
    writes: position 0, `seekable` from the initial seek, a zero
    `buffer-size` replaced by the default unless unbuffered, and an empty
    store of the kind the mode asks for.
   */
  function Open(cfg: Config, answers: seq<Attempt>, seekOk: bool): (s: State)
    ensures Inv(s)
    ensures s.pos == 0 && s.pendingSize == 0 && s.file.content == []
    ensures s.cfg.bufferMode != ModeUnbuffered ==> s.cfg.bufferSize > 0
    ensures s.pending.NoStore? <==> cfg.bufferMode == ModeUnbuffered
    ensures s.pending.Memory? <==> cfg.bufferMode == ModeFull
    ensures s.pending.Memory? ==> s.pending.capacity == s.cfg.bufferSize
  {
    var size := if cfg.bufferMode != ModeUnbuffered && cfg.bufferSize == 0
                then DefaultBufferSize else cfg.bufferSize;
    var pending := match cfg.bufferMode
                   case ModeUnbuffered => NoStore
                   case ModeFull => Memory(size, [])
                   case _ => Listed([]);
    State(cfg.(bufferSize := size), File([], 0), answers, seekOk, 0, pending, 0, None, FreshPhase)
  }
}

=== FILE: sink_props.dfy ===
/**
  Properties of the sink that relate several calls or hold across every
  entry point: the coalescer invariant, what the POSITION query promises,
  that coalescing neither loses nor reorders bytes, the Recording drain
  order, the Postrecord deadline, the Prerecord bootstrap and the
  retention window.
 */
module SinkProperties {
  import opened Options
  import opened Chunks
  import opened Storage
  import opened Writer
  import opened Sink
  import Fifo

  // ---------------------------------------------------------------------
  // The coalescer invariant holds across every entry point

  lemma FlushKeepsInv(s: State, now: Clock)
    requires Inv(s)
    ensures Inv(Flush(s, now).0)
  {
    var r := Flush(s, now).0;
    match s.pending
    case Memory(cap, bytes) =>
      assert r.pending.Memory? && |r.pending.bytes| == 0;
    case Listed(chunks) =>
      if s.pendingSize != 0 {
        assert r.pending == Listed([]);
      }
    case NoStore =>
  }

  lemma QueueMemoryKeepsInv(s: State, data: seq<byte>, now: Clock)
    requires Inv(s) && s.pending.Memory?
    ensures Inv(QueueMemory(s, data, now).0)
  {
    var cap := s.pending.capacity;
    var (t, f) := if s.pendingSize + |data| > cap then Flush(s, now) else (s, Ok);
    if s.pendingSize + |data| > cap {
      FlushKeepsInv(s, now);
    }
    assert Inv(t) && t.pending.Memory? && t.pending.capacity == cap;
  }

  lemma {:induction false} QueueMemoryAllKeepsInv(s: State, b: Batch, now: Clock)
    requires Inv(s) && s.pending.Memory?
    ensures Inv(QueueMemoryAll(s, b, now).0)
    decreases |b|
  {
    if b != [] {
      QueueMemoryKeepsInv(s, b[0].data, now);
      var (t, f) := QueueMemory(s, b[0].data, now);
      if f == Ok {
        QueueMemoryAllKeepsInv(t, b[1..], now);
      }
    }
  }

  lemma QueueListKeepsInv(s: State, b: Batch, now: Clock)
    requires Inv(s) && s.pending.Listed?
    ensures Inv(QueueList(s, b, now).0)
  {
    BytesAppend(s.pending.chunks, b);
    var t := s.(pending := Listed(s.pending.chunks + b), pendingSize := s.pendingSize + |Bytes(b)|);
    assert Inv(t);
    if t.pendingSize > s.cfg.bufferSize {
      FlushKeepsInv(t, now);
    }
  }

  lemma PhaseStepKeepsInv(s: State, b: Batch, now: Clock)
    requires Inv(s)
    ensures Inv(PhaseStep(s, b, now).0)
  {
  }

  lemma RenderKeepsInv(s: State, c: Chunk, env: Env)
    requires Inv(s)
    ensures Inv(Render(s, c, env).0)
  {
    if c.nMem > 0 && (c.syncAfter || s.pending.NoStore?) {
      FlushKeepsInv(s, env.now);
    } else if c.nMem > 0 {
      if s.pending.Memory? {
        QueueMemoryKeepsInv(s, c.data, env.now);
      } else {
        QueueListKeepsInv(s, [c], env.now);
      }
    }
  }

  lemma RenderListKeepsInv(s: State, b: Batch, env: Env)
    requires Inv(s)
    ensures Inv(RenderList(s, b, env).0)
  {
    if b != [] {
      if HasSyncAfter(b) || s.pending.NoStore? {
        FlushKeepsInv(s, env.now);
      } else if s.pending.Memory? {
        QueueMemoryAllKeepsInv(s, b, env.now);
      } else {
        QueueListKeepsInv(s, b, env.now);
      }
    }
  }

  lemma DoSeekKeepsInv(s: State, offset: nat, env: Env)
    requires Inv(s)
    ensures Inv(DoSeek(s, offset, env).0)
  {
    FlushKeepsInv(s, env.now);
  }

  lemma EventsKeepInv(s: State, format: Format, start: nat, env: Env)
    requires Inv(s)
    ensures Inv(Segment(s, format, start, env).0)
    ensures Inv(FlushStop(s, env).0)
    ensures Inv(EndOfStream(s, env).0)
  {
    DoSeekKeepsInv(s, start, env);
    DoSeekKeepsInv(s, 0, env);
    FlushKeepsInv(s, env.now);
  }

  // ---------------------------------------------------------------------
  // Position

  /**
    The file as it will be once everything pending is flushed, for the
    stores whose flush writes straight to the file.
   */
  function Stream(s: State): File
  {
    match s.pending
    case NoStore => s.file
    case Memory(_, bytes) => Write(s.file, bytes)
    case Listed(chunks) => Write(s.file, Bytes(chunks))
  }

  /** The POSITION query reports where the stream's cursor will be. */
  lemma QueryIsStreamCursor(s: State, format: Format)
    requires Inv(s)
    ensures format != FormatOther ==> QueryPosition(s, format) == Some(Stream(s).cursor)
    ensures format == FormatOther ==> QueryPosition(s, format) == None
  {
  }

  /**
    A flush the writer accepts moves `current_pos` exactly to the position
    reported before it, in full mode and, while recording with nothing
    retained, in list mode.
   */
  lemma FlushReachesQueriedPosition(s: State, now: Clock)
    requires Inv(s)
    requires s.answers != [] && s.answers[0].flow == Ok
    requires s.pending.Listed? ==> s.cfg.buffering == Recording && (s.fifo.None? || s.fifo == Some([]))
    ensures Flush(s, now).1 == Ok
    ensures Some(Flush(s, now).0.pos) == QueryPosition(s, FormatBytes)
    ensures Flush(s, now).0.file == Stream(s)
    ensures Flush(s, now).0.answers == if s.pendingSize != 0 then s.answers[1..] else s.answers
  {
    if s.pendingSize != 0 {
      match s.pending
      case Memory(cap, bytes) =>
        RetryFirstOk(bytes, s.file, s.pos, s.answers);
      case Listed(chunks) =>
        RetryFirstOk(Bytes(chunks), s.file, s.pos, s.answers);
      case NoStore =>
    } else {
      match s.pending
      case Memory(cap, bytes) =>
        assert bytes == [];
      case Listed(chunks) =>
        assert Bytes(chunks) == [];
      case NoStore =>
    }
  }

  /** After a BYTES segment that succeeds, the reported position is the segment start. */
  lemma SegmentSetsPosition(s: State, start: nat, env: Env)
    requires Segment(s, FormatBytes, start, env).1
    ensures QueryPosition(Segment(s, FormatBytes, start, env).0, FormatBytes) == Some(start)
  {
  }

  // ---------------------------------------------------------------------
  // Coalescing is transparent

  /**
    The states whose flush writes straight to the file: full mode, or
    recording with nothing retained.
   */
  predicate Direct(s: State)
  {
    s.pending.Memory? || (s.cfg.buffering == Recording && (s.fifo.None? || s.fifo == Some([])))
  }

  /** With nothing pending, the stream is the file. */
  lemma EmptyStream(s: State)
    requires Inv(s) && s.pendingSize == 0
    ensures Stream(s) == s.file
  {
    match s.pending
    case Memory(_, bytes) =>
      assert bytes == [];
    case Listed(chunks) =>
      assert Bytes(chunks) == [];
    case NoStore =>
  }

  /** A write the writer accepts at once. */
  lemma EmitOk(s: State, data: seq<byte>)
    requires s.answers != [] && s.answers[0].flow == Ok
    ensures Emit(s, data) ==
            (s.(file := Write(s.file, data), pos := s.pos + |data|, answers := s.answers[1..]), Ok)
  {
    RetryFirstOk(data, s.file, s.pos, s.answers);
  }

  /** A flush in a direct state with an accepting writer: the stream is now the file. */
  lemma FlushDirect(s: State, now: Clock)
    requires Inv(s) && Direct(s)
    requires AllOk(s.answers) && |s.answers| >= 1
    ensures var r := Flush(s, now);
      && r.1 == Ok && Inv(r.0) && Direct(r.0)
      && r.0.file == Stream(s) && Stream(r.0) == Stream(s)
      && AllOk(r.0.answers) && |r.0.answers| + 1 >= |s.answers|
  {
    FlushReachesQueriedPosition(s, now);
    FlushKeepsInv(s, now);
    EmptyStream(Flush(s, now).0);
  }

  lemma QueueMemoryKeepsStream(s: State, data: seq<byte>, now: Clock)
    requires Inv(s) && s.pending.Memory?
    requires AllOk(s.answers) && |s.answers| >= 2
    ensures var r := QueueMemory(s, data, now);
      && r.1 == Ok && Stream(r.0) == Write(Stream(s), data)
      && AllOk(r.0.answers) && |r.0.answers| + 2 >= |s.answers|
  {
    var cap := s.pending.capacity;
    var r := QueueMemory(s, data, now);
    if s.pendingSize + |data| > cap {
      FlushDirect(s, now);
      var t := Flush(s, now).0;
      EmptyStream(t);
      if |data| > cap {
        EmitOk(t, data);
        EmptyStream(r.0);
      } else {
        assert t.pending.bytes == [];
        assert t.pending.bytes + data == data;
      }
    } else {
      WriteWrite(s.file, s.pending.bytes, data);
    }
  }

  lemma QueueListKeepsStream(s: State, b: Batch, now: Clock)
    requires Inv(s) && Direct(s) && s.pending.Listed?
    requires AllOk(s.answers) && |s.answers| >= 1
    ensures var r := QueueList(s, b, now);
      && r.1 == Ok && Stream(r.0) == Write(Stream(s), Bytes(b))
      && AllOk(r.0.answers) && |r.0.answers| + 1 >= |s.answers|
  {
    BytesAppend(s.pending.chunks, b);
    WriteWrite(s.file, Bytes(s.pending.chunks), Bytes(b));
    var t := s.(pending := Listed(s.pending.chunks + b), pendingSize := s.pendingSize + |Bytes(b)|);
    if t.pendingSize > s.cfg.bufferSize {
      FlushDirect(t, now);
    }
  }

  /**
    One buffer through `render`: with a writer that accepts everything,
    the bytes that will reach the file are the old stream followed by the
    buffer's bytes, whichever way the buffer was routed.
   */
  lemma RenderKeepsStream(s: State, c: Chunk, env: Env)
    requires Inv(s) && Direct(s)
    requires AllOk(s.answers) && |s.answers| >= 2
    requires c.syncAfter ==> env.fsyncOk
    ensures var r := Render(s, c, env);
      && r.1 == Ok && Inv(r.0) && Direct(r.0)
      && Stream(r.0) == (if c.nMem > 0 then Write(Stream(s), c.data) else Stream(s))
      && AllOk(r.0.answers) && |r.0.answers| + 2 >= |s.answers|
  {
    RenderKeepsInv(s, c, env);
    if c.nMem > 0 && (c.syncAfter || s.pending.NoStore?) {
      FlushDirect(s, env.now);
      var u := Flush(s, env.now).0;
      EmitOk(u, c.data);
      EmptyStream(Render(s, c, env).0);
    } else if c.nMem > 0 {
      if s.pending.Memory? {
        QueueMemoryKeepsStream(s, c.data, env.now);
      } else {
        assert Bytes([c]) == c.data;
        QueueListKeepsStream(s, [c], env.now);
      }
    }
  }

  /** Recording with nothing retained: the phase machine is a plain write. */
  predicate RecordingDirect(s: State)
  {
    s.cfg.buffering == Recording && (s.fifo.None? || s.fifo == Some([]))
  }

  lemma RecordStepOk(s: State, b: Batch, now: Clock)
    requires RecordingDirect(s) && b != []
    requires s.answers != [] && s.answers[0].flow == Ok
    ensures PhaseStep(s, b, now) ==
            (s.(file := Write(s.file, Bytes(b)), pos := s.pos + |Bytes(b)|, answers := s.answers[1..]), Ok)
  {
    EmitOk(s, Bytes(b));
  }

  lemma {:induction false} QueueMemoryAllKeepsStream(s: State, b: Batch, now: Clock)
    requires Inv(s) && s.pending.Memory?
    requires AllOk(s.answers) && |s.answers| >= 2 * |b|
    ensures var r := QueueMemoryAll(s, b, now);
      && r.1 == Ok && Stream(r.0) == Write(Stream(s), Bytes(b))
      && AllOk(r.0.answers) && |r.0.answers| + 2 * |b| >= |s.answers|
    decreases |b|
  {
    if b != [] {
      QueueMemoryKeepsStream(s, b[0].data, now);
      QueueMemoryKeepsInv(s, b[0].data, now);
      var t := QueueMemory(s, b[0].data, now).0;
      QueueMemoryAllKeepsStream(t, b[1..], now);
      WriteWrite(Stream(s), b[0].data, Bytes(b[1..]));
    }
  }

  /**
    One list through `render_list` while recording with nothing retained:
    the bytes that will reach the file are the old stream followed by the
    list's bytes.
   */
  lemma RenderListKeepsStream(s: State, b: Batch, env: Env)
    requires Inv(s) && RecordingDirect(s)
    requires AllOk(s.answers) && |s.answers| >= 2 * |b|
    requires HasSyncAfter(b) ==> env.fsyncOk
    ensures var r := RenderList(s, b, env);
      && r.1 == Ok && Inv(r.0) && RecordingDirect(r.0)
      && Stream(r.0) == Write(Stream(s), Bytes(b))
      && AllOk(r.0.answers) && |r.0.answers| + 2 * |b| >= |s.answers|
  {
    RenderListKeepsInv(s, b, env);
    if b != [] {
      if HasSyncAfter(b) || s.pending.NoStore? {
        FlushDirect(s, env.now);
        var u := Flush(s, env.now).0;
        RecordStepOk(u, b, env.next);
        EmptyStream(RenderList(s, b, env).0);
      } else if s.pending.Memory? {
        QueueMemoryAllKeepsStream(s, b, env.now);
      } else {
        QueueListKeepsStream(s, b, env.now);
      }
    }
  }

  /**
    `render_list` reads the clock again for its own phase-machine call. In
    Postrecord with a list pending, a SYNC_AFTER list whose deadline passes
    between the flush's reading and the list's reading is written after
    the pending list, and the answer is EOS.
   */
  lemma RenderListRereadsClock(s: State, b: Batch, env: Env)
    requires Inv(s) && s.pending.Listed? && s.pendingSize != 0
    requires s.cfg.buffering == Postrecord && s.cfg.postRecord > 0 && s.phase.timeCaptured
    requires HasSyncAfter(b)
    requires AllOk(s.answers) && |s.answers| >= 2
    requires !Reached(env.now.second, s.phase.start, s.cfg.postRecord)
    requires Reached(env.next.second, s.phase.start, s.cfg.postRecord)
    ensures var r := RenderList(s, b, env);
      && r.1 == Eos
      && r.0.file == Write(s.file, Bytes(s.pending.chunks) + Bytes(b))
  {
    var chunks := s.pending.chunks;
    assert chunks != [];
    EmitOk(s, Bytes(chunks));
    var u := Flush(s, env.now).0;
    assert u.file == Write(s.file, Bytes(chunks)) && u.phase.start == s.phase.start;
    assert b != [];
    EmitOk(u, Bytes(b));
    WriteWrite(s.file, Bytes(chunks), Bytes(b));
  }

  /** A sequence of buffers through `render`, stopping at the first flow that is not OK. */
  function RenderAll(s: State, cs: seq<Chunk>, env: Env): (State, Flow)
    decreases |cs|
  {
    if cs == [] then (s, Ok)
    else
      var (t, f) := Render(s, cs[0], env);
      if f != Ok then (t, f) else RenderAll(t, cs[1..], env)
  }

  /** Every buffer is well formed, and every sync a buffer asks for succeeds. */
  predicate Sendable(cs: seq<Chunk>, env: Env)
  {
    forall i :: 0 <= i < |cs| ==> WellFormed(cs[i]) && (cs[i].syncAfter ==> env.fsyncOk)
  }

  /**
    A sequence of buffers through `render`, whichever way each one is
    routed (queued, or flushed and written directly because it asks for a
    sync or the sink is unbuffered): with a writer that accepts everything,
    the bytes that will reach the file are the old stream followed by
    every buffer's bytes, in order.
   */
  lemma {:induction false} RenderAllKeepsStream(s: State, cs: seq<Chunk>, env: Env)
    requires Inv(s) && Direct(s) && Sendable(cs, env)
    requires AllOk(s.answers) && |s.answers| >= 2 * |cs| + 1
    ensures var r := RenderAll(s, cs, env);
      && r.1 == Ok && Inv(r.0) && Direct(r.0)
      && Stream(r.0) == Write(Stream(s), Bytes(cs))
      && AllOk(r.0.answers) && |r.0.answers| >= 1
    decreases |cs|
  {
    if cs != [] {
      RenderKeepsStream(s, cs[0], env);
      var t := Render(s, cs[0], env).0;
      assert Stream(t) == Write(Stream(s), cs[0].data);
      assert Sendable(cs[1..], env) by {
        forall i | 0 <= i < |cs[1..]|
          ensures WellFormed(cs[1..][i]) && (cs[1..][i].syncAfter ==> env.fsyncOk)
        {
          assert cs[1..][i] == cs[i + 1];
        }
      }
      RenderAllKeepsStream(t, cs[1..], env);
      WriteWrite(Stream(s), cs[0].data, Bytes(cs[1..]));
    }
  }

  /**
    A whole recording session: open the file in any buffer mode while
    recording, send buffers one by one, then end the stream. With a writer
    that accepts everything and syncs that succeed, the file holds exactly
    the buffers' bytes, in order, each once, and nothing is left pending.
   */
  lemma SessionWritesEveryByteOnce(cfg: Config, answers: seq<Attempt>, seekOk: bool, cs: seq<Chunk>, env: Env)
    requires cfg.buffering == Recording
    requires Sendable(cs, env)
    requires AllOk(answers) && |answers| >= 2 * |cs| + 1
    ensures var s := Open(cfg, answers, seekOk);
      var r := RenderAll(s, cs, env);
      var e := EndOfStream(r.0, env);
      && r.1 == Ok && e.1
      && e.0.file.content == Bytes(cs)
      && e.0.pos == |Bytes(cs)| && e.0.pendingSize == 0
  {
    var s := Open(cfg, answers, seekOk);
    assert Stream(s) == s.file;
    RenderAllKeepsStream(s, cs, env);
    var r := RenderAll(s, cs, env).0;
    FlushDirect(r, env.now);
    WriteAtEnd(s.file, Bytes(cs));
  }

  /**
    FLUSH_STOP on a seekable file away from its start, when the flush,
    the seek and the truncation succeed: the file restarts empty and the
    reported position is 0.
   */
  lemma FlushStopRestartsFile(s: State, env: Env)
    requires Inv(s) && s.seekable && s.pos != 0
    requires env.seekOk && env.truncateOk && Flush(s, env.now).1 == Ok
    ensures FlushStop(s, env).1
    ensures FlushStop(s, env).0.file == File([], 0)
    ensures QueryPosition(FlushStop(s, env).0, FormatBytes) == Some(0)
  {
  }

  /**
    FLUSH_STOP at position 0 or on a pipe: nothing is written or
    truncated, and what was pending is dropped.
   */
  lemma FlushStopDropsPending(s: State, env: Env)
    requires !(s.pos != 0 && s.seekable)
    ensures FlushStop(s, env).1
    ensures FlushStop(s, env).0.file == s.file
    ensures QueryPosition(FlushStop(s, env).0, FormatBytes) == Some(s.pos)
  {
  }

  /**
    FLUSH_STOP can drop a pending list unwritten even when it seeks: in
    Postrecord with `post-record` not positive, the flush's phase step
    does nothing, so the writer is never called and the list is emptied.
   */
  lemma FlushStopPostrecordDropsList(s: State, env: Env)
    requires s.pending.Listed? && s.pendingSize != 0 && s.seekable && s.pos != 0
    requires s.cfg.buffering == Postrecord && s.cfg.postRecord <= 0
    ensures FlushStop(s, env).0.answers == s.answers
    ensures FlushStop(s, env).0.pending == Listed([])
    ensures FlushStop(s, env).1 ==> FlushStop(s, env).0.pendingSize == 0
  {
  }

  // ---------------------------------------------------------------------
  // Routing inside the coalescer

  /**
    Full mode, one buffer. If it fits beside what is pending, it is copied
    in and nothing is written. Otherwise what is pending is flushed first;
    a flush that fails ends the call. After a successful flush, a buffer
    larger than the whole allocation goes straight to the file and nothing
    stays pending. Pending bytes never exceed the allocation.
   */
  lemma QueueMemoryRouting(s: State, data: seq<byte>, now: Clock)
    requires Inv(s) && s.pending.Memory?
    ensures var r := QueueMemory(s, data, now);
      && r.0.pendingSize <= s.pending.capacity
      && (s.pendingSize + |data| <= s.pending.capacity ==>
            && r.1 == Ok && r.0.file == s.file && r.0.pos == s.pos && r.0.answers == s.answers
            && r.0.pending == Memory(s.pending.capacity, s.pending.bytes + data)
            && r.0.pendingSize == s.pendingSize + |data|)
      && (s.pendingSize + |data| > s.pending.capacity && Flush(s, now).1 != Ok ==>
            r == Flush(s, now))
      && (s.pendingSize + |data| > s.pending.capacity && Flush(s, now).1 == Ok && |data| > s.pending.capacity ==>
            r == Emit(Flush(s, now).0, data) && r.0.pendingSize == 0)
  {
    QueueMemoryKeepsInv(s, data, now);
  }

  /**
    List mode: the batch joins the pending list and its bytes are counted.
    A flush follows exactly when the count then exceeds `buffer-size`; it
    leaves the list empty. Without it nothing is written.
   */
  lemma QueueListRouting(s: State, b: Batch, now: Clock)
    requires Inv(s) && s.pending.Listed?
    ensures var r := QueueList(s, b, now);
      && (s.pendingSize + |Bytes(b)| > s.cfg.bufferSize ==>
            r.0.pendingSize == 0 && r.0.pending == Listed([]))
      && (s.pendingSize + |Bytes(b)| <= s.cfg.bufferSize ==>
            && r.1 == Ok && r.0.file == s.file && r.0.fifo == s.fifo && r.0.answers == s.answers
            && r.0.pending == Listed(s.pending.chunks + b)
            && r.0.pendingSize == |Bytes(s.pending.chunks + b)|)
  {
    BytesAppend(s.pending.chunks, b);
  }
}

=== FILE: storage.dfy ===
/**
  The output file as the sink sees it through its descriptor: the bytes it
  holds and the cursor that the next write starts at. Opening, closing and
  `fsync` are not modelled here; seek and truncate are the plain POSIX
  meanings the sink relies on.
 */
module Storage {
  import opened Chunks

  datatype File = File(content: seq<byte>, cursor: nat)

  function Zeros(n: nat): (z: seq<byte>)
    ensures |z| == n && forall i :: 0 <= i < n ==> z[i] == 0
  {
    seq(n, _ => 0)
  }

  function Max(a: nat, b: nat): nat
  {
    if a < b then b else a
  }

  /**
    A write at the cursor: the bytes land at `cursor ..`, overwriting what
    was there and extending the file when they run past its end; a
    non-empty write with the cursor past the end leaves a zero-filled hole.
    The cursor moves past the bytes.
   */
  function Write(f: File, a: seq<byte>): (r: File)
    ensures r.cursor == f.cursor + |a|
  {
    if a == [] then f
    else
      var padded := if f.cursor <= |f.content| then f.content
                    else f.content + Zeros(f.cursor - |f.content|);
      var tail := if f.cursor + |a| <= |padded| then padded[f.cursor + |a|..] else [];
      File(padded[..f.cursor] + a + tail, f.cursor + |a|)
  }

  /** Where each byte of the file ends up after a write. */
  lemma WriteContent(f: File, a: seq<byte>)
    ensures |Write(f, a).content| == if a == [] then |f.content| else Max(|f.content|, f.cursor + |a|)
    ensures forall i :: 0 <= i < |a| ==> Write(f, a).content[f.cursor + i] == a[i]
    ensures forall i :: 0 <= i < |f.content| && !(f.cursor <= i < f.cursor + |a|) ==>
              Write(f, a).content[i] == f.content[i]
    ensures a != [] ==> forall i :: |f.content| <= i < f.cursor ==> Write(f, a).content[i] == 0
  {
  }

  /** A write resumed where the previous one stopped equals one write of both parts. */
  lemma WriteWrite(f: File, a: seq<byte>, b: seq<byte>)
    ensures Write(Write(f, a), b) == Write(f, a + b)
  {
    var x := Write(Write(f, a), b);
    var y := Write(f, a + b);
    var m := Write(f, a);
    WriteContent(f, a);
    WriteContent(m, b);
    WriteContent(f, a + b);
    assert |x.content| == |y.content|;
    forall i | 0 <= i < |x.content|
      ensures x.content[i] == y.content[i]
    {
      if f.cursor <= i < f.cursor + |a| {
        assert x.content[i] == m.content[i] == a[i - f.cursor];
        assert (a + b)[i - f.cursor] == a[i - f.cursor];
      } else if f.cursor + |a| <= i < f.cursor + |a| + |b| {
        assert x.content[i] == b[i - f.cursor - |a|];
        assert (a + b)[i - f.cursor] == b[i - f.cursor - |a|];
      } else if i < |f.content| {
        assert x.content[i] == m.content[i] == f.content[i];
      } else {
        assert a != [] || b != [];
        assert x.content[i] == 0 && y.content[i] == 0;
      }
    }
  }

  /** At the end of the file a write appends. */
  lemma WriteAtEnd(f: File, a: seq<byte>)
    requires f.cursor == |f.content|
    ensures Write(f, a) == File(f.content + a, f.cursor + |a|)
  {
    var r := Write(f, a);
    WriteContent(f, a);
    assert |r.content| == |f.content + a|;
    forall i | 0 <= i < |r.content|
      ensures r.content[i] == (f.content + a)[i]
    {
      if i >= |f.content| {
        assert r.content[f.cursor + (i - f.cursor)] == a[i - f.cursor];
      }
    }
  }

  /** `fseeko(.., SEEK_SET)` on a seekable file: only the cursor moves. */
  function Seek(f: File, offset: nat): (r: File)
    ensures r.content == f.content && r.cursor == offset
  {
    f.(cursor := offset)
  }

  /** `ftruncate(fd, 0)`: the file becomes empty; the cursor stays put. */
  function TruncateToZero(f: File): (r: File)
    ensures |r.content| == 0 && r.cursor == f.cursor
  {
    f.(content := [])
  }
}

=== FILE: writer.dfy ===
/**
  The retry loop shared by `render_buffer`, `gst_file_sink_render_list_internal`
  and the memory branch of `gst_prerecord_sink_flush_buffer`.

  The vectored writer (`gst_writev_buffer`, `gst_writev_buffer_list`,
  `gst_writev_mem`) is external. It is modelled as a script of answers: each
  call takes the next `Attempt`, which says how many bytes that call wrote
  and which flow it returned, and, for a FLUSHING answer, what
  `gst_base_sink_wait_preroll` returned afterwards. The writer's own
  contract is built in: it never reports more bytes than remain, and OK
  means every remaining byte was written.
 */
module Writer {
  import opened Chunks
  import opened Storage

  /** The `GstFlowReturn` values the core produces or passes on. */
  datatype Flow = Ok | Flushing | Eos | Error

  datatype Attempt = Attempt(written: nat, flow: Flow, resume: Flow)

  /** The bytes one call of the writer moves when `remaining` are left. */
  function Progress(a: Attempt, remaining: nat): (n: nat)
    ensures n <= remaining
    ensures a.flow == Ok ==> n == remaining
    ensures a.flow != Ok && a.written <= remaining ==> n == a.written
  {
    if a.flow == Ok || remaining < a.written then remaining else a.written
  }

  /** The loop goes round again only after FLUSHING followed by a successful preroll wait. */
  predicate Retries(a: Attempt)
  {
    a.flow == Flushing && a.resume == Ok
  }

  /** The flow the loop returns when it stops after this answer. */
  function Final(a: Attempt): Flow
  {
    if a.flow != Flushing then a.flow else a.resume
  }

  /**
    The state the loop leaves behind: its flow, how far into the data it
    got (`skip`), the file, `current_pos`, and the writer answers not yet
    used.
   */
  datatype Outcome = Outcome(flow: Flow, skip: nat, file: File, pos: nat, answers: seq<Attempt>)

  /**
    The retry loop from byte `skip` of `data`. Each pass writes the next
    `bytes_written` bytes at the cursor and advances both `current_pos` and
    `skip` by exactly that much; the loop repeats only on FLUSHING followed
    by an OK preroll wait. When the script runs out the loop ends with
    FLUSHING: the pipeline was shut down while the sink waited.
   */
  function Retry(data: seq<byte>, skip: nat, file: File, pos: nat, answers: seq<Attempt>): (r: Outcome)
    requires skip <= |data|
    ensures skip <= r.skip <= |data|
    ensures r.pos == pos + (r.skip - skip)
    ensures r.file.cursor == file.cursor + (r.skip - skip)
    ensures r.flow == Ok ==> r.skip == |data|
    ensures |r.answers| <= |answers|
    decreases |answers|
  {
    if answers == [] then
      Outcome(Flushing, skip, file, pos, [])
    else
      var a := answers[0];
      var n := Progress(a, |data| - skip);
      var file' := Write(file, data[skip..skip + n]);
      if !Retries(a) then
        Outcome(Final(a), skip + n, file', pos + n, answers[1..])
      else
        Retry(data, skip + n, file', pos + n, answers[1..])
  }

  /**
    What reaches the file is the data from `skip` up to where the loop
    stopped, in order and once: the resumed passes leave the same bytes as
    one uninterrupted write of that stretch.
   */
  lemma {:induction false} RetryWritesInOrder(data: seq<byte>, skip: nat, file: File, pos: nat, answers: seq<Attempt>)
    requires skip <= |data|
    ensures Retry(data, skip, file, pos, answers).file ==
            Write(file, data[skip..Retry(data, skip, file, pos, answers).skip])
    decreases |answers|
  {
    var r := Retry(data, skip, file, pos, answers);
    if answers == [] {
      assert data[skip..skip] == [];
    } else if Retries(answers[0]) {
      var n := Progress(answers[0], |data| - skip);
      var file' := Write(file, data[skip..skip + n]);
      RetryWritesInOrder(data, skip + n, file', pos + n, answers[1..]);
      WriteWrite(file, data[skip..skip + n], data[skip + n..r.skip]);
      assert data[skip..skip + n] + data[skip + n..r.skip] == data[skip..r.skip];
    }
  }

  /**
    The answers a run of the loop used: all but the last asked for a retry;
    the loop stopped at the last one with the flow it implies, or the
    script ran out while the loop was still retrying.
   */
  ghost predicate Trace(answers: seq<Attempt>, rest: seq<Attempt>, flow: Flow)
  {
    && |rest| <= |answers|
    && rest == answers[|answers| - |rest|..]
    && Used(answers, |answers| - |rest|, flow)
  }

  /** The first `k` answers are a run of the loop that ended with `flow`. */
  ghost predicate Used(answers: seq<Attempt>, k: nat, flow: Flow)
    requires k <= |answers|
  {
    && (forall i :: 0 <= i < k - 1 ==> Retries(answers[i]))
    && ((k > 0 && !Retries(answers[k - 1]) && flow == Final(answers[k - 1]))
        || (k == |answers| && flow == Flushing && (k == 0 || Retries(answers[k - 1]))))
  }

  lemma {:induction false} RetryTrace(data: seq<byte>, skip: nat, file: File, pos: nat, answers: seq<Attempt>)
    requires skip <= |data|
    ensures Trace(answers, Retry(data, skip, file, pos, answers).answers, Retry(data, skip, file, pos, answers).flow)
    decreases |answers|
  {
    var r := Retry(data, skip, file, pos, answers);
    if answers == [] {
      assert Used(answers, 0, r.flow);
    } else if !Retries(answers[0]) {
      assert r.answers == answers[1..];
      assert Used(answers, 1, r.flow);
    } else {
      var n := Progress(answers[0], |data| - skip);
      var file' := Write(file, data[skip..skip + n]);
      var tail := answers[1..];
      RetryTrace(data, skip + n, file', pos + n, tail);
      assert r == Retry(data, skip + n, file', pos + n, tail);
      UsedCons(answers, |tail| - |r.answers|, r.flow);
    }
  }

  /** A retrying answer in front of a run is a run one answer longer. */
  lemma UsedCons(answers: seq<Attempt>, k: nat, flow: Flow)
    requires answers != [] && Retries(answers[0]) && k <= |answers| - 1
    requires Used(answers[1..], k, flow)
    ensures Used(answers, k + 1, flow)
  {
    var tail := answers[1..];
    forall i | 0 <= i < k
      ensures Retries(answers[i])
    {
      if i > 0 { assert answers[i] == tail[i - 1]; }
    }
    if k > 0 { assert answers[k] == tail[k - 1]; }
  }

  /** The loop as each caller starts it: from the first byte. */
  function WriteAll(data: seq<byte>, file: File, pos: nat, answers: seq<Attempt>): (r: Outcome)
    ensures r.skip <= |data|
    ensures r.pos == pos + r.skip
    ensures r.file == Write(file, data[..r.skip])
    ensures r.flow == Ok ==> r.skip == |data| && r.file == Write(file, data)
  {
    RetryWritesInOrder(data, 0, file, pos, answers);
    assert data[0..] == data;
    Retry(data, 0, file, pos, answers)
  }

  /** Every remaining answer of the script reports OK. */
  predicate AllOk(answers: seq<Attempt>)
  {
    forall i :: 0 <= i < |answers| ==> answers[i].flow == Ok
  }

  /** With a writer that answers OK, one call writes everything and uses one answer. */
  lemma RetryFirstOk(data: seq<byte>, file: File, pos: nat, answers: seq<Attempt>)
    requires answers != [] && answers[0].flow == Ok
    ensures WriteAll(data, file, pos, answers) ==
            Outcome(Ok, |data|, Write(file, data), pos + |data|, answers[1..])
  {
    var r := WriteAll(data, file, pos, answers);
    assert |r.answers| == |answers| - 1;
  }
}
